=== FILE: README.md ===
# libfib scheduler core, modelled in Dafny

This project models one worker of the libfib fiber scheduler (`sched.h`), seen sequentially:

- its in-hand run-queue, a cursor chain ending in a sentinel;
- the LIFO/FIFO hybrid push with its LIFO credit;
- `yield`, `migrate` and `rand`;
- the `active_workers` termination counter;
- the batch replenishment of `scheduler_loop`.

Replenishment tries the sources in a fixed order: remote inbox, local queue, a steal, I/O, then the scarce-work search. The batch it finds is installed as the new chain, with the scheduler's own continuation linked behind it.

Modules:

- `Nodes`: run-queue nodes (`Sentinel` or a `Waiter`).
- `CInt`: 32-bit wrap-around and C's truncating `%`.
- `Worker`: one worker's record (chain, credit, local and remote queues, seed) and the fiber-side operations on it.
- `Pool`: the worker table and counter, migration, and the owner's dequeues.
- `Steal`: the start index, the scan order and the victim scan of `try_steal_work`.
- `Scheduler`: the I/O hand-over, the scarce-work search, the replenishment priority and one pass of the scheduler loop.

Modelling choices:

- **Lock-free operations.** The queues are sequences, head first. Each lock-free dequeue either wins or loses its race, and that outcome is an input: a `bool`, or an `int -> bool` that says which victims' dequeues win.
- **The infinite scarce-work loop** runs for a finite list of rounds. When the rounds run out, it reports that it is still searching.
- **The I/O manager** is an input: a count and the woken queue.
- **Node accounting.** Every operation carries a conservation law over the multiset of nodes held in all chains and queues (`Pool.Held`). No continuation is lost or duplicated, except the ones the operation itself hands out or adds.

Two behaviours of the code that are easy to misread, stated as the code has them:

- **Victim scan.** The scan visits the n−1 indices after the start index and skips the stealer itself. The worker at the start index is never examined. So when the start index is not the stealer, only n−2 workers are tried.
- **Burst of pushes.** With credit C and pushes p1..pk (k > C), the pushes that go LIFO are the first C: p1..pC. The next pops therefore return pC..p1, not pk..pk−C+1. The later pushes go to the local queue in order.

## Model

| member | source | states |
|---|---|---|
| Worker.New | sched.h:144-149 | A new worker has its cursor on the sentinel, empty local and remote queues and holds no node. Its seed is 35442352 + id × 23243, wrapped to 32 bits, and its id and credit are whatever those fields held. |
| Worker.Pop | sched.h:166-175 | Popping returns the node under the cursor, which is never the sentinel. The chain loses exactly that head and nothing else about the worker changes. The cursor reaches the sentinel iff the chain had one node. The returned node plus the remaining nodes are exactly the nodes held before. |
| Worker.PopsFollowChain | sched.h:166-175 | k successive pops return the first k chain nodes in chain order and leave exactly the rest of the chain. |
| Worker.PushLifo | sched.h:188-192 | The pushed node becomes the cursor, and popping right after undoes the push exactly. |
| Worker.PushFifo | sched.h:177-187 | The node is appended at the tail of the local queue, the old queue is its prefix, and nothing else changes. |
| Worker.Push | sched.h:193-202 | With positive credit the node is spliced at the cursor and one credit is consumed. Otherwise the node goes to the tail of the local queue and the chain and credit are unchanged. Either way the node is added to what the worker holds, and a credit in [0, 2] stays in [0, 2]. |
| Worker.PushThenPop | sched.h:193-202 | With credit, the next pop returns the pushed node and restores the worker except for one spent credit. Without credit, the next pop returns the node that was already under the cursor and the pushed node waits in the local queue. |
| Worker.PushBurst | sched.h:193-202 | After pushes p1..pk, the first m of them (m = the credit, at most k) sit at the front of the chain, most recent first, and the credit is down by m. The remaining pushes are at the tail of the local queue in their own order. |
| Worker.Yield | sched.h:441-447 | The fiber's fresh placeholder joins the tail of the local queue. The continuation resumed is the one under the cursor, and it is not the placeholder. The chain advances by one, nothing else about the worker changes, and the node accounting balances. |
| Worker.Rand | sched.h:235-237 | `rand` returns the current seed and increments it; at INT_MAX the seed wraps to INT_MIN. |
| Worker.RandWraps | sched.h:235-237 | The increment is exactly 32-bit two's-complement addition. |
| Worker.Reserve | sched.h:419-437 | Installing a batch resumes its first node. The new chain is the rest of the batch followed by the scheduler's continuation, and the credit is set to 2. Nothing else about the worker changes, and the node accounting balances. |
| Worker.SchedulerRunsLast | sched.h:416-437 | After the install, as many pops as the batch has nodes run the rest of the batch in order and then the scheduler. The cursor is then back on the sentinel, and the worker is as before apart from the credit. |
| Worker.Receive | sched.h:224-231 | An enqueue onto a worker's remote inbox appends the node at the tail and changes nothing else. |
| CInt.CRem | sched.h:245-246 | C's `%` for a positive divisor: the remainder has the dividend's sign and is smaller than the divisor in magnitude, and dividend = divisor × truncated quotient + remainder. |
| CInt.CRemSmall | sched.h:245-246 | A dividend smaller in magnitude than the divisor is its own C remainder. |
| Pool.SetActive | sched.h:77-79 | `set_active` raises the counter by 1 and changes no worker. |
| Pool.SetInactive | sched.h:80-82 | `set_inactive` lowers the counter by 1 and changes no worker. |
| Pool.IsTerminated | sched.h:83-85 | `is_terminated` holds exactly when the counter reads 0. |
| Pool.ActivityBrackets | sched.h:76-85 | `set_active` and `set_inactive` undo each other. Going inactive reaches `is_terminated` iff the counter was 1, and going active reaches it iff the counter was −1. |
| Pool.Depart | sched.h:223 | The migrating worker resumes the node under its cursor, and its chain advances by one. The table is otherwise unchanged and keeps its accounting. |
| Pool.Deliver | sched.h:224-232 | The placeholder is appended to the target's remote inbox, and no other worker changes. |
| Pool.Migrate | sched.h:218-233 | `migrate` raises the counter by 2. It resumes the next in-hand continuation and appends the placeholder to the target's inbox. The migrating worker changes only in its chain, the target only in its inbox (both when they are the same worker), and every other worker is untouched. The held nodes gain the placeholder and lose the resumed node. |
| Pool.TakeRemote | sched.h:344-348 | Dequeuing the head of the owner's remote inbox removes exactly that node from the system and nothing else. |
| Pool.TakeLocal | sched.h:367-371 | Dequeuing the head of a worker's local queue removes exactly that node from the system and nothing else. |
| Pool.TryGetRemote | sched.h:336-356 | It succeeds iff the inbox is non-empty and the dequeue wins. A success returns the head as a one-node batch, lowers the counter by 2, and removes exactly that head from the owner's inbox; no other worker and no other queue changes. A failure changes nothing. |
| Pool.TryGetLocal | sched.h:358-378 | It succeeds iff the local queue is non-empty and the dequeue wins. A success returns the head as a one-node batch and removes exactly that head from the owner's local queue; no other worker and no other queue changes. The counter is never touched. |
| Pool.MigrationBalances | sched.h:218-233 | A migration onto an empty inbox, followed by the target's successful remote dequeue, hands the target exactly the placeholder. The counter is back at its value from before the migration. |
| Steal.StartIndex | sched.h:245 | The corrected start index lies in [0, n) and differs from the seed by a multiple of n, so it equals the seed when the seed is already in range (see Findings). |
| Steal.ScanOrder | sched.h:246 | The loop `for (i = (start+1)%n; i != start; i = (i+1)%n)`, from a start in range, terminates. It visits exactly the indices start+1, start+2, … (mod n), each in range and none equal to start. |
| Steal.ScanCovers | sched.h:246 | The scan visits every index other than the start exactly once, always in range. |
| Steal.ScanLoop | sched.h:246-272 | A successful scan names a victim that is in the scan, is not the stealer, has a non-empty local queue and won its dequeue. |
| Steal.ScanLoopPicks | sched.h:246-273 | The scan takes from the first non-empty victim whose dequeue wins. The exception is a counting scan whose counter reads zero, which stops after its first failed attempt. A counting scan raises the counter by 1 on success and leaves it unchanged on failure. |
| Steal.TrySteal | sched.h:239-275 | A steal advances the stealer's seed as `rand()` does and yields a one-node batch. A counting steal raises the counter by 1 on success, and a failed steal leaves it unchanged. A success takes the head of one other worker's local queue and changes no other local queue. A failure changes no local queue. Apart from the stealer's seed and the victim's local queue, every worker is untouched. The node accounting balances. |
| Steal.TryStealScans | sched.h:239-275 | The outcome of `try_steal_work` is that of the scan over the queues as they were before it drew the seed. A success takes exactly the victim's local head. |
| Steal.StealTakesVictimHead | sched.h:246-260 | A stolen node is the head of the local queue of a worker that is not the stealer and not at the start index, and that worker's dequeue won. That victim's queue loses exactly its head. |
| Steal.StealSucceedsIff | sched.h:246-273 | Outside the zero-counter case, a steal succeeds iff some worker other than the stealer and the start index has a non-empty local queue whose dequeue wins. |
| Steal.StealFindsReady | sched.h:246-273 | Outside the zero-counter case, any ready victim in the scan guarantees success. |
| Steal.StealGivesUpAtZero | sched.h:252-268 | A counting steal from a zero counter succeeds iff the first non-empty victim in scan order wins its dequeue. |
| Steal.LoneWorkerNeverSteals | sched.h:246-248 | With one worker there is no victim, so a steal always fails. |
| Steal.AsWrittenStart | sched.h:245 | `rand() % nworkers` with C's `%` lies in (−n, n). It agrees with the corrected index for every non-negative seed, and for a negative seed exactly when it is 0 (the seed is a multiple of n). |
| Steal.AsWrittenProbe | sched.h:246 | The index sequence of the source's loop as written: the first probe is `(start+1) % n` and each next one is `(i+1) % n`, both with C's truncating `%`. |
| Steal.NegativeStartNeverMet | sched.h:246 | From a negative start the source's loop probes start+1 first, and every later index stays above start. So the exit test `i != start` never fails. |
| Steal.WrappedSeedBreaksScan | sched.h:235-246 | A seed at INT_MAX wraps to INT_MIN. The next steal among three workers starts at −2, probes −1, and never meets its exit test. The corrected index instead scans workers 2 then 0. |
| Scheduler.TryPerformIo | sched.h:277-293 | A positive count hands over the whole woken queue, zero means no I/O, and a negative count is the error path; each outcome holds iff its condition does. |
| Scheduler.ScarceRounds | sched.h:303-332 | Work from the inbox is the inbox head, found only when the inbox was non-empty. Its table is the one before the search with exactly that head gone from the inbox, and a remote success adds 1 then takes 2 off the counter. Stolen work is the local head of another worker, found only when the inbox was empty; that worker lost exactly that head, no other queue changed, and a steal success adds 1. Without a find no queue changes. Only the searcher's seed moves besides. The search gives up only with an empty inbox and a counter of zero (with the counter fixed between turns, see Left out), and otherwise leaves the counter unchanged. Batches are single nodes, and the node accounting balances. |
| Scheduler.ScarceLoop | sched.h:295-334 | After `set_inactive`, migrated-in work is the inbox head, removed from the inbox and nothing else, and leaves the counter 2 lower. Stolen work is another worker's local head, taken only with an empty inbox and removed from that queue alone, and leaves the counter unchanged. Without a find no queue changes, and only the searcher's seed moves. The search reports termination only with an empty inbox and a counter of 1 on entry (see Left out), and the counter is then 0. |
| Scheduler.Drain | sched.h:312-320 | A won inbox dequeue in the search hands out the inbox head, removes exactly it from the table, and leaves the counter 1 lower (`set_active` then `fetch_and_dec2`). |
| Scheduler.ScarceTriesInboxFirst | sched.h:307-322 | A turn with a non-empty inbox tries only the inbox. A won dequeue ends the search with the inbox head and the counter 1 lower. A lost one goes round again with nothing changed. |
| Scheduler.ScarceRoundGivesUp | sched.h:323-331 | A turn with an empty inbox runs one counting steal. Its success ends the search with the stolen node. Its failure ends the search when the counter reads zero, and otherwise the search goes round again from the table the steal left. |
| Scheduler.ScarceLoopGivesUp | sched.h:295-334 | Entered with the counter at 1 and an empty inbox, the search terminates in its first turn iff there is no victim with a non-empty local queue, or the first one in scan order loses its dequeue. |
| Scheduler.LoneIdleWorkerStops | sched.h:295-334 | A lone worker with an empty inbox whose counter reads 1 on entry terminates in the first round. |
| Scheduler.LastResort | sched.h:404-413 | After a failed steal, I/O wins iff the count is positive and hands over the woken queue, leaving the table as it was. An error occurs iff the count is negative, also with the table unchanged. With a zero count the refill is exactly the outcome of `Scheduler.ScarceLoop` run on the table after the steal (`Scheduler.Reports`): the same table, the found node as the batch tagged with its origin, giving up as termination and a cut-short search as still searching. Whatever the outcome, the table is as `Leaves` describes: the inbox head gone for migrated-in work, one other worker's local head gone for stolen work, no queue changed otherwise. |
| Scheduler.AfterSteal | sched.h:400-413 | A stolen batch wins iff the steal succeeded, and the table is the one the steal left. I/O and the search are reached only after a failed steal; an I/O batch or an I/O error leaves exactly the steal's table. Whatever the source, the table differs from the one before the steal only as `Leaves` allows. |
| Scheduler.LocalOrLater | sched.h:398-413 | The local queue wins iff it is non-empty and its dequeue wins, and then the batch is its head. The later sources follow in order, each only when all earlier ones failed. A local refill removes exactly that head and changes nothing else. A stolen batch is exactly the batch of `try_steal_work` (non-counting) and the table is the one it left: another worker's local head, which only that worker lost. Every refill leaves the table as `Leaves` describes. |
| Scheduler.Replenish | sched.h:392-413 | The sources are tried in the order remote, local, steal, I/O, scarce. Remote, local, steal and I/O each win iff all earlier sources failed and their own condition holds; an I/O error occurs iff all those failed and the count is negative; the scarce-work search, termination and a cut-short search are reached only when all four failed and the count is 0 (what the search then decides is `Scheduler.ReplenishSearches`). The batch is the inbox head, the local head, the batch and table of the non-counting `try_steal_work`, or the woken queue, by source. The table left behind is fixed by source (`Leaves`): an inbox or local refill removes exactly the head it hands out; a steal removes one other worker's local head; the scarce-work search removes the inbox head or another worker's local head when it finds work; every other outcome changes no queue; and only the worker's own seed moves besides. Non-I/O batches are one node. Migrated-in work lowers the counter by 2 and other sources leave it unchanged. Termination happens only when the counter was 1 (see Left out). Every node is accounted for. |
| Scheduler.Install | sched.h:419-437 | A found batch becomes the worker's chain, followed by the scheduler continuation, with credit 2. Nothing else about the worker changes. The first batch node is resumed, other workers are untouched, and the accounting balances. |
| Scheduler.SchedulerStep | sched.h:380-438 | A refill resumes the first batch node, and the chain becomes the rest of the batch plus the scheduler. A termination exits the loop, and an I/O error aborts. The scheduler's fresh continuation is never the node resumed. After a refill the table is the refill's with only the worker's chain and credit replaced; otherwise it is the refill's table. |
| Scheduler.ReplenishSearches | sched.h:395-413 | When the remote dequeue, the local dequeue and the non-counting steal all fail and the I/O count is 0, the refill is exactly the outcome of `Scheduler.ScarceLoop` run on the table the failed steal left (`Scheduler.Reports`). Termination then means the worker's inbox was empty. |
| Scheduler.MissSearches | sched.h:404-413 | After a missed steal and a zero I/O count, the refill is exactly the outcome of `Scheduler.ScarceLoop` run on the steal's table. |
| Scheduler.SchedulerPass | sched.h:380-438 | One pass resumes a node iff replenishment found a batch, and that node is real work, not the scheduler. The scheduler is last in the new chain and the credit is 2. The loop exits only when the counter was 1 and now reads 0 (see Left out). Every node is accounted for. |
| Scheduler.PassSearches | sched.h:395-438 | When every source before the scarce-work search fails: the pass resumes iff the search found work, and the node resumed is the one it found. It returns iff the search gave up, and then the inbox was empty and the table is the search's. It spins iff the search was cut short. It never aborts. |
| Scheduler.PassFrame | sched.h:380-438 | After one pass the counter and every worker are those the replenishment left, except the worker's own chain and credit. Every other worker differs from before the pass at most in its local queue. |

## Left out

- Stack switching (`invoke`, `ctx_switch`, `sleep`, the fiber thunks and fiber creation): a continuation is an abstract `Waiter` identity. Resuming one is the node an operation returns.
- Concurrency: other workers' interleavings are not modelled. Each lock-free operation is one atomic step whose race outcome is an input, and the model is one worker's sequential view.
- The lock-free queue transport (`llq` tags, `begin`/`end`, retry loops): queues are sequences. An enqueue retry loop that spins until it wins (`push_runqueue_fifo`, `migrate`) is modelled as a single successful enqueue.
- The I/O manager's polling is an input (`Scheduler.IoPoll`).
- Statistics, `say` tracing and the `NDEBUG` chain-walking assertion are left out, because they carry no scheduling behaviour.
- Scheduler.ScarceRounds: runs for finitely many rounds and reports `StillSearching` when they run out. The source's `while (1)` can spin forever. Each round's input is only its race outcomes: between turns the counter, the inbox and the other workers' queues stay as this worker left them. So the search can end only in a turn where this worker itself reads the counter at 0, which for `Scheduler.ScarceLoop`, `Scheduler.Replenish` and `Scheduler.SchedulerPass` means a counter of 1 on entry. In the source a worker entering with the counter at 2 or more keeps spinning until other workers' `set_inactive` calls bring it to 0, and migrations can fill its inbox meanwhile; that interleaving is not modelled.
- Scheduler.TryPerformIo: a negative I/O count is modelled as the abort of `assert(0)`. In a build with `NDEBUG` the function instead returns false and the scarce-work search runs; that build is not modelled.
- Steal.TrySteal: the scan starts from the corrected `StartIndex`, a remainder in [0, n). For a negative seed the source's scan reads `all_workers[-1]` or never ends (see Findings), and that behaviour is only modelled by `Steal.AsWrittenStart`, `Steal.AsWrittenProbe` and the lemmas about them. `Scheduler.ScarceRounds` and `Scheduler.Replenish` inherit the corrected scan.
- Worker.Rand: the increment of the signed seed is undefined in C++ at INT_MAX. The model assumes the two's-complement wrap to INT_MIN.
- Worker.New: the constructor reads `id` before anything sets it and leaves `lifo_push_count` unset. Both are parameters, and the seed formula is computed with 32-bit wrap-around.
- The `active_workers` counter (`llq::word`) is an unbounded integer, because no bounded width matters for the counts modelled.
- `try_get_remote` and `try_steal_work` under `FIBER_SINGLETHREADED` always fail, and that build is not modelled.
- Batches from the remote inbox, the local queue and steals are single nodes, as the code dequeues one node. The commented-out whole-queue flush is not modelled.
- `spawn_and_join_workers`, the worker table's construction and thread start-up are outside the scheduling core.
- Stack allocation and the thread-local current-worker lookup (`current_`, `current`) are platform plumbing with no scheduling behaviour.

## Findings

| source | as written | input that shows it | evidently intended | confidence | as-written member | corrected member |
|---|---|---|---|---|---|---|
| sched.h:235-246 | `randseed` is a signed `int` incremented on every `rand()`, and the scan starts at `rand() % nworkers` with C's `%`. Once the seed has wrapped past INT_MAX it is negative, the start index is negative unless the seed is a multiple of n, the first index probed can be −1 (outside `all_workers`), and `i != start` is never false again. | A seed of INT_MAX. The next `rand()` returns INT_MAX and leaves the seed at INT_MIN; the one after returns INT_MIN, which with 3 workers gives start −2 and first probe −1. | A start index in [0, n), for instance an unsigned seed or a non-negative remainder, from which the scan visits every other worker once and stops. | not executed | Steal.WrappedSeedBreaksScan | Steal.StartIndex |

=== FILE: cint.dfy ===
/** The C integer semantics the scheduler relies on: 32-bit signed `int`
    and the `%` operator, which truncates toward zero.  Signed overflow (as
    in `randseed++`) is undefined in C++; the model assumes the
    two's-complement wrap-around that common targets produce. */
module CInt {

  const IntMin: int := -0x8000_0000
  const IntMax: int := 0x7fff_ffff
  const Modulus: int := 0x1_0000_0000

  predicate IsInt32(x: int) {
    IntMin <= x <= IntMax
  }

  /** The 32-bit value a two's-complement machine keeps of `x`. */
  function Wrap32(x: int): (r: int)
    ensures IsInt32(r)
    ensures (x - r) % Modulus == 0
    ensures IsInt32(x) ==> r == x
  {
    (x - IntMin) % Modulus + IntMin
  }

  /** C's `a % b` for a positive divisor: the remainder takes the sign of the
      dividend. */
  function CRem(a: int, b: int): (r: int)
    requires b > 0
    ensures 0 <= a ==> 0 <= r < b
    ensures a < 0 ==> -b < r <= 0
    ensures a == b * CQuot(a, b) + r
  {
    if a >= 0 then a % b else -((-a) % b)
  }

  /** C's `a / b` for a positive divisor: the quotient rounds toward zero. */
  function CQuot(a: int, b: int): int
    requires b > 0
  {
    if a >= 0 then a / b else -((-a) / b)
  }

  /** A dividend smaller in magnitude than the divisor is its own C
      remainder. */
  lemma CRemSmall(a: int, b: int)
    requires -b < a < b
    ensures CRem(a, b) == a
  {
    if a < 0 {
      SmallRem(-a, b);
    } else if a > 0 {
      SmallRem(a, b);
    } else {
      assert CRem(a, b) == 0 % b;
    }
  }

  lemma SmallRem(a: int, b: int)
    requires 0 < a < b
    ensures a % b == a
  {
  }
}

=== FILE: nodes.dfy ===
/** Run-queue nodes of one scheduler worker.

    Every continuation ("waiter") embeds one link, so any waiter can sit in a
    queue or in the in-hand chain.  The sentinel is a distinguished marker that
    ends the in-hand chain; it is never real work. */
module Nodes {

  /** A run-queue node: the sentinel, or a suspended continuation named by an
      abstract identity. */
  datatype Node = Sentinel | Waiter(id: nat)

  /** A queue or chain made only of real continuations. */
  predicate Payload(q: seq<Node>) {
    Sentinel !in q
  }

  function Last(q: seq<Node>): Node
    requires q != []
  {
    q[|q| - 1]
  }

  function Reverse(q: seq<Node>): (r: seq<Node>)
    ensures |r| == |q|
  {
    seq(|q|, i requires 0 <= i < |q| => q[|q| - 1 - i])
  }
}

=== FILE: pool.dfy ===
/** The worker table and the process-wide active-worker counter, with the
    operations that move continuations between workers' queues: migration
    into a target's remote inbox and the owner's dequeues from its own remote
    inbox and local queue.  The lock-free transport is seen sequentially: a
    dequeue attempt either takes the head or fails (a lost race), and the
    caller passes which. */
module Pool {
  import opened Nodes
  import Worker

  /** All workers, indexed by worker number, and the `active_workers`
      counter. */
  datatype System = System(workers: seq<Worker.State>, active: int)

  /** Result of one attempt to obtain a batch of work. */
  datatype Grab = Got(batch: seq<Node>, sys: System) | Missed(sys: System)

  /** A continuation resumed by an operation, and the state it leaves. */
  datatype Resume = Resume(node: Node, sys: System)

  predicate Valid(s: System) {
    forall i :: 0 <= i < |s.workers| ==> Worker.Valid(s.workers[i])
  }

  predicate Owns(s: System, me: int) {
    0 <= me < |s.workers|
  }

  /** `is_terminated`: no worker is counted as active. */
  predicate IsTerminated(s: System) {
    s.active == 0
  }

  /** `set_active`: one more worker counts as busy. */
  function SetActive(s: System): (r: System)
    ensures r.workers == s.workers && r.active == s.active + 1
  {
    s.(active := s.active + 1)
  }

  /** `set_inactive`: one fewer worker counts as busy. */
  function SetInactive(s: System): (r: System)
    ensures r.workers == s.workers && r.active == s.active - 1
  {
    s.(active := s.active - 1)
  }

  /** The two counter updates undo each other, and going inactive reaches
      termination exactly when this was the last busy worker. */
  lemma ActivityBrackets(s: System)
    ensures SetInactive(SetActive(s)) == s && SetActive(SetInactive(s)) == s
    ensures IsTerminated(SetInactive(s)) <==> s.active == 1
    ensures IsTerminated(SetActive(s)) <==> s.active == -1
  {
  }

  /** Every node held in any worker's chain or queues. */
  function Held(ws: seq<Worker.State>): multiset<Node>
    decreases |ws|
  {
    if ws == [] then multiset{} else Held(ws[..|ws| - 1]) + Worker.Held(ws[|ws| - 1])
  }

  /** The nodes an attempt took out of the queues. */
  function Taken(g: Grab): multiset<Node> {
    if g.Got? then multiset(g.batch) else multiset{}
  }

  /** Replacing one worker changes the held nodes by exactly that worker's
      difference. */
  lemma {:induction false} HeldUpdate(ws: seq<Worker.State>, i: int, w: Worker.State)
    requires 0 <= i < |ws|
    ensures Held(ws[i := w]) + Worker.Held(ws[i]) == Held(ws) + Worker.Held(w)
    decreases |ws|
  {
    var n := |ws| - 1;
    if i == n {
      HeldUpdateLast(ws, w);
    } else {
      HeldUpdate(ws[..n], i, w);
      HeldUpdateEarlier(ws, i, w);
    }
  }

  /** Replacing the last worker only replaces its own nodes. */
  lemma HeldUpdateLast(ws: seq<Worker.State>, w: Worker.State)
    requires ws != []
    ensures Held(ws[|ws| - 1 := w]) + Worker.Held(ws[|ws| - 1]) == Held(ws) + Worker.Held(w)
  {
    var n := |ws| - 1;
    var us := ws[n := w];
    assert us[..n] == ws[..n];
    assert Held(us) == Held(ws[..n]) + Worker.Held(w);
    assert Held(ws) == Held(ws[..n]) + Worker.Held(ws[n]);
  }

  /** Replacing an earlier worker, given the same fact for the prefix. */
  lemma HeldUpdateEarlier(ws: seq<Worker.State>, i: int, w: Worker.State)
    requires 0 <= i < |ws| - 1
    requires Held(ws[..|ws| - 1][i := w]) + Worker.Held(ws[i]) == Held(ws[..|ws| - 1]) + Worker.Held(w)
    ensures Held(ws[i := w]) + Worker.Held(ws[i]) == Held(ws) + Worker.Held(w)
  {
    var n := |ws| - 1;
    var us := ws[i := w];
    assert us[..n] == ws[..n][i := w];
    assert Held(us) == Held(ws[..n][i := w]) + Worker.Held(ws[n]);
    assert Held(ws) == Held(ws[..n]) + Worker.Held(ws[n]);
    WidenBalance(Held(ws[..n][i := w]), Held(ws[..n]), Worker.Held(ws[i]), Worker.Held(w), Worker.Held(ws[n]));
  }

  /** A balanced exchange stays balanced when the same bag is added to both
      sides. */
  lemma WidenBalance(p: multiset<Node>, q: multiset<Node>, a: multiset<Node>, b: multiset<Node>, c: multiset<Node>)
    requires p + a == q + b
    ensures (p + c) + a == (q + c) + b
  {
    forall x
      ensures ((p + c) + a)[x] == ((q + c) + b)[x]
    {
      assert (p + a)[x] == (q + b)[x];
    }
  }

  /** A bag added to both sides of an equation can be taken off again. */
  lemma CancelShared(x: multiset<Node>, y: multiset<Node>, k: multiset<Node>)
    requires x + k == y + k
    ensures x == y
  {
    assert forall n :: x[n] == (x + k)[n] - k[n];
    assert forall n :: y[n] == (y + k)[n] - k[n];
  }

  /** Taking one node `h` out of worker `i`, leaving `w`, takes it out of the
      system. */
  lemma HeldTake(ws: seq<Worker.State>, i: int, w: Worker.State, h: Node)
    requires 0 <= i < |ws|
    requires Worker.Held(ws[i]) == Worker.Held(w) + multiset{h}
    ensures Held(ws[i := w]) + multiset{h} == Held(ws)
  {
    HeldUpdate(ws, i, w);
    var x, y, k := Held(ws[i := w]) + multiset{h}, Held(ws), Worker.Held(w);
    assert x + k == y + k by {
      assert forall n :: (x + k)[n] == Held(ws[i := w])[n] + Worker.Held(ws[i])[n];
    }
    CancelShared(x, y, k);
  }

  /** Adding one node `h` to worker `i`, giving `w`, adds it to the system. */
  lemma HeldAdd(ws: seq<Worker.State>, i: int, w: Worker.State, h: Node)
    requires 0 <= i < |ws|
    requires Worker.Held(w) == Worker.Held(ws[i]) + multiset{h}
    ensures Held(ws[i := w]) == Held(ws) + multiset{h}
  {
    HeldUpdate(ws, i, w);
    var x, y, k := Held(ws[i := w]), Held(ws) + multiset{h}, Worker.Held(ws[i]);
    assert x + k == y + k by {
      assert forall n :: (y + k)[n] == Held(ws)[n] + Worker.Held(w)[n];
    }
    CancelShared(x, y, k);
  }

  /** In a valid system the sentinel is held nowhere. */
  lemma {:induction false} ValidHoldsNoSentinel(ws: seq<Worker.State>)
    requires forall i :: 0 <= i < |ws| ==> Worker.Valid(ws[i])
    ensures Sentinel !in Held(ws)
    decreases |ws|
  {
    if ws != [] {
      var n := |ws| - 1;
      ValidHoldsNoSentinel(ws[..n]);
      assert Worker.Valid(ws[n]);
    }
  }

  /** The system with worker `i` replaced by `w`. */
  function Put(s: System, i: int, w: Worker.State): (r: System)
    requires Owns(s, i)
    ensures Valid(s) && Worker.Valid(w) ==> Valid(r)
    ensures |r.workers| == |s.workers| && r.workers[i] == w && r.active == s.active
    ensures forall j :: 0 <= j < |s.workers| && j != i ==> r.workers[j] == s.workers[j]
  {
    s.(workers := s.workers[i := w])
  }

  /** `migrate(target)`: raise the counter by two (one for the migrating
      worker staying busy, one for the unit of work in flight), pop the next
      in-hand continuation, enqueue the caller's fresh placeholder `w` on the
      target's remote inbox and resume the popped continuation.  The
      placeholder, once drained by the target, resumes the migrated fiber. */
  function Migrate(s: System, me: int, target: int, w: Node): (r: Resume)
    requires Valid(s) && Owns(s, me) && Owns(s, target)
    requires Worker.Cursor(s.workers[me]) != Sentinel
    requires w != Sentinel
    ensures Valid(r.sys)
    ensures r.sys.active == s.active + 2
    ensures |r.sys.workers| == |s.workers|
    ensures r.node == Worker.Cursor(s.workers[me]) && r.node != Sentinel
    ensures r.sys.workers[me].chain == s.workers[me].chain[1..]
    ensures r.sys.workers[target].remote == s.workers[target].remote + [w]
    ensures me != target ==> r.sys.workers[me] == s.workers[me].(chain := s.workers[me].chain[1..])
    ensures me != target ==>
              r.sys.workers[target] == s.workers[target].(remote := s.workers[target].remote + [w])
    ensures me == target ==>
              r.sys.workers[me] == s.workers[me].(chain := s.workers[me].chain[1..],
                                                  remote := s.workers[me].remote + [w])
    ensures forall i :: 0 <= i < |s.workers| && i != me && i != target ==>
              r.sys.workers[i] == s.workers[i]
    ensures Held(r.sys.workers) + multiset{r.node} == Held(s.workers) + multiset{w}
  {
    var d := Depart(s.(active := s.active + 2), me);
    var s3 := Deliver(d.sys, target, w);
    MigrateCount(Held(s.workers), Held(d.sys.workers), Held(s3.workers), d.node, w);
    Resume(d.node, s3)
  }

  /** The migrating fiber leaves worker `me`: its cursor moves on. */
  function Depart(s: System, me: int): (r: Resume)
    requires Valid(s) && Owns(s, me)
    requires Worker.Cursor(s.workers[me]) != Sentinel
    ensures Valid(r.sys) && |r.sys.workers| == |s.workers| && r.sys.active == s.active
    ensures r.node == Worker.Cursor(s.workers[me]) && r.node != Sentinel
    ensures r.sys.workers[me] == s.workers[me].(chain := s.workers[me].chain[1..])
    ensures forall i :: 0 <= i < |s.workers| && i != me ==> r.sys.workers[i] == s.workers[i]
    ensures Held(r.sys.workers) + multiset{r.node} == Held(s.workers)
  {
    var p := Worker.Pop(s.workers[me]);
    HeldTake(s.workers, me, p.1, p.0);
    Resume(p.0, Put(s, me, p.1))
  }

  /** The migrating fiber's node is appended to `target`'s remote queue. */
  function Deliver(s: System, target: int, w: Node): (r: System)
    requires Valid(s) && Owns(s, target) && w != Sentinel
    ensures Valid(r) && |r.workers| == |s.workers| && r.active == s.active
    ensures r.workers[target] == s.workers[target].(remote := s.workers[target].remote + [w])
    ensures forall i :: 0 <= i < |s.workers| && i != target ==> r.workers[i] == s.workers[i]
    ensures Held(r.workers) == Held(s.workers) + multiset{w}
  {
    var t := Worker.Receive(s.workers[target], w);
    HeldAdd(s.workers, target, t, w);
    Put(s, target, t)
  }

  lemma MigrateCount(h0: multiset<Node>, h1: multiset<Node>, h2: multiset<Node>, x: Node, w: Node)
    requires h1 + multiset{x} == h0
    requires h2 == h1 + multiset{w}
    ensures h2 + multiset{x} == h0 + multiset{w}
  {
    assert forall n :: (h2 + multiset{x})[n] == h1[n] + multiset{w}[n] + multiset{x}[n];
  }

  /** The system after the owner `me` dequeued the head of its remote inbox. */
  function TakeRemote(s: System, me: int): (r: System)
    requires Owns(s, me) && s.workers[me].remote != []
    ensures Held(r.workers) + multiset{s.workers[me].remote[0]} == Held(s.workers)
    ensures Valid(s) ==> Valid(r)
    ensures |r.workers| == |s.workers| && r.active == s.active
    ensures r.workers[me] == s.workers[me].(remote := s.workers[me].remote[1..])
    ensures forall j :: 0 <= j < |s.workers| && j != me ==> r.workers[j] == s.workers[j]
  {
    var w := s.workers[me];
    var w' := w.(remote := w.remote[1..]);
    assert w.remote == [w.remote[0]] + w'.remote;
    assert Worker.Held(w) == Worker.Held(w') + multiset{w.remote[0]};
    HeldTake(s.workers, me, w', w.remote[0]);
    Put(s, me, w')
  }

  /** The system after the head of worker `v`'s local queue was dequeued (by
      its owner or by a stealer). */
  function TakeLocal(s: System, v: int): (r: System)
    requires Owns(s, v) && s.workers[v].local != []
    ensures Held(r.workers) + multiset{s.workers[v].local[0]} == Held(s.workers)
    ensures Valid(s) ==> Valid(r)
    ensures |r.workers| == |s.workers| && r.active == s.active
    ensures r.workers[v] == s.workers[v].(local := s.workers[v].local[1..])
    ensures forall j :: 0 <= j < |s.workers| && j != v ==> r.workers[j] == s.workers[j]
  {
    var w := s.workers[v];
    var w' := w.(local := w.local[1..]);
    assert w.local == [w.local[0]] + w'.local;
    assert Worker.Held(w) == Worker.Held(w') + multiset{w.local[0]};
    HeldTake(s.workers, v, w', w.local[0]);
    Put(s, v, w')
  }

  /** `try_get_remote`: when the inbox is non-empty and the dequeue wins, take
      its head as a one-node batch and lower the counter by two, balancing
      the two units added by the migration that put it there. */
  function TryGetRemote(s: System, me: int, casOk: bool): (r: Grab)
    requires Valid(s) && Owns(s, me)
    ensures Valid(r.sys)
    ensures |r.sys.workers| == |s.workers|
    ensures r.Got? <==> s.workers[me].remote != [] && casOk
    ensures r.Got? ==> && r.batch == [s.workers[me].remote[0]]
                       && r.sys.active == s.active - 2
                       && r.sys.workers[me].remote == s.workers[me].remote[1..]
    ensures r.Got? ==> r.sys.workers == s.workers[me := s.workers[me].(remote := s.workers[me].remote[1..])]
    ensures r.Missed? ==> r.sys == s
    ensures Held(r.sys.workers) + Taken(r) == Held(s.workers)
    ensures forall j :: 0 <= j < |s.workers| ==>
              r.sys.workers[j] == s.workers[j].(remote := r.sys.workers[j].remote)
  {
    if s.workers[me].remote != [] && casOk then
      var head := s.workers[me].remote[0];
      var t := TakeRemote(s, me);
      Got([head], t.(active := t.active - 2))
    else
      Missed(s)
  }

  /** `try_get_local`: when the owner's local queue is non-empty and the
      dequeue wins, take its head as a one-node batch.  The counter is not
      touched. */
  function TryGetLocal(s: System, me: int, casOk: bool): (r: Grab)
    requires Valid(s) && Owns(s, me)
    ensures Valid(r.sys)
    ensures |r.sys.workers| == |s.workers|
    ensures r.Got? <==> s.workers[me].local != [] && casOk
    ensures r.Got? ==> && r.batch == [s.workers[me].local[0]]
                       && r.sys.workers[me].local == s.workers[me].local[1..]
    ensures r.Got? ==> r.sys.workers == s.workers[me := s.workers[me].(local := s.workers[me].local[1..])]
    ensures r.sys.active == s.active
    ensures r.Missed? ==> r.sys == s
    ensures Held(r.sys.workers) + Taken(r) == Held(s.workers)
    ensures forall j :: 0 <= j < |s.workers| ==>
              r.sys.workers[j] == s.workers[j].(local := r.sys.workers[j].local)
  {
    if s.workers[me].local != [] && casOk then
      Got([s.workers[me].local[0]], TakeLocal(s, me))
    else
      Missed(s)
  }

  /** The counter balance of migration: the two units `migrate` adds are the
      two the target's inbox dequeue removes, and the placeholder the
      migrating fiber enqueued on an empty inbox is exactly what the target
      drains. */
  lemma MigrationBalances(s: System, me: int, target: int, w: Node)
    requires Valid(s) && Owns(s, me) && Owns(s, target)
    requires Worker.Cursor(s.workers[me]) != Sentinel
    requires w != Sentinel
    requires s.workers[target].remote == []
    ensures var m := Migrate(s, me, target, w);
            var g := TryGetRemote(m.sys, target, true);
            && g.Got?
            && g.batch == [w]
            && g.sys.active == s.active
            && g.sys.workers[target].remote == []
  {
  }
}

=== FILE: scheduler.dfy ===
/** The scheduler fiber's side of the run-queue: where a worker whose in-hand
    batch has run out finds its next batch (migrated-in work, its own local
    queue, a steal, completed I/O, and finally the scarce-work search), and
    how the found batch is installed with the scheduler queued behind it. */
module Scheduler {
  import opened Nodes
  import Worker
  import opened Pool
  import opened Steal

  /** What one poll of the worker's I/O manager reports: `count` continuations
      became runnable, listed in `woken` in queue order; a negative count is an
      error.  The poll itself is outside the model. */
  datatype IoPoll = IoPoll(count: int, woken: seq<Node>)

  predicate PollValid(p: IoPoll) {
    && (p.count >= 0 ==> |p.woken| == p.count)
    && Payload(p.woken)
  }

  datatype IoResult = IoBatch(batch: seq<Node>) | NoIo | IoError

  /** `try_perform_io`: a positive count hands the whole woken queue over as
      the new batch, zero means no I/O completed, and a negative count is the
      fatal-assertion error path. */
  function TryPerformIo(p: IoPoll): (r: IoResult)
    requires PollValid(p)
    ensures r.IoBatch? <==> p.count > 0
    ensures r.IoError? <==> p.count < 0
    ensures r.NoIo? <==> p.count == 0
    ensures r.IoBatch? ==> r.batch == p.woken && |r.batch| == p.count && Payload(r.batch)
  {
    if p.count > 0 then IoBatch(p.woken)
    else if p.count < 0 then IoError
    else NoIo
  }

  /** The outcomes of the lock-free operations in one turn of the scarce-work
      loop: whether the remote dequeue wins its race, and which victims' local
      dequeues win theirs. */
  datatype Round = Round(remoteOk: bool, stealOk: int -> bool)

  /** Result of the scarce-work search.  `migrated` tells whether the batch
      came from the remote queue (as opposed to a steal). */
  datatype Scarce =
    | Found(batch: seq<Node>, sys: System, migrated: bool)
    | AllIdle(sys: System)
    | StillSearching(sys: System)

  function ScarceTaken(r: Scarce): multiset<Node> {
    if r.Found? then multiset(r.batch) else multiset{}
  }

  /** The body of the `while (1)` loop of `try_get_scarce_work`, run for as
      many turns as `rounds` lists.  A non-empty remote queue is retried until
      its dequeue wins; that win marks the worker active and then drops the
      counter by two.  Otherwise a counting steal is tried, and an unsuccessful
      one ends the search once the counter reads zero. */
  function ScarceRounds(s: System, me: int, rounds: seq<Round>): (r: Scarce)
    requires Valid(s) && Owns(s, me)
    ensures Valid(r.sys) && |r.sys.workers| == |s.workers|
    ensures r.Found? ==> |r.batch| == 1
    ensures r.Found? ==> r.sys.active == s.active + (if r.migrated then -1 else 1)
    ensures r.AllIdle? ==> s.active == 0 && IsTerminated(r.sys)
    ensures r.StillSearching? ==> r.sys.active == s.active
    ensures Held(r.sys.workers) + ScarceTaken(r) == Held(s.workers)
    ensures r.sys.workers[me].chain == s.workers[me].chain
    ensures r.sys.workers[me].credit == s.workers[me].credit
    ensures Sought(s.workers, me, r)
    ensures r.AllIdle? ==> s.workers[me].remote == []
    decreases |rounds|
  {
    if rounds == [] then StillSearching(s)
    else if s.workers[me].remote != [] then
      if rounds[0].remoteOk then Drain(s, me)
      else ScarceRounds(s, me, rounds[1..])
    else
      var g := TrySteal(s, me, true, rounds[0].stealOk);
      StealSearched(s, me, true, rounds[0].stealOk);
      if g.Got? then Found(g.batch, g.sys, false)
      else if IsTerminated(g.sys) then AllIdle(g.sys)
      else
        var r := ScarceRounds(g.sys, me, rounds[1..]);
        Onward(s, me, g, r);
        r
  }

  /** What the scarce-work search of worker `me` from table `ws` leaves
      behind.  Migrated-in work is the inbox head, and the inbox lost exactly
      that node.  Stolen work, found only with an empty inbox, is the local
      head that some other worker lost.  With nothing found no queue changed.
      Apart from that only `me`'s seed may have moved. */
  predicate Sought(ws: seq<Worker.State>, me: int, r: Scarce)
    requires 0 <= me < |ws|
  {
    && Searched(ws, r.sys.workers, me)
    && if r.Found? && r.migrated then
         && ws[me].remote != [] && r.batch == [ws[me].remote[0]]
         && r.sys.workers == ws[me := ws[me].(remote := ws[me].remote[1..])]
       else
         && r.sys.workers[me].remote == ws[me].remote
         && if r.Found? then ws[me].remote == [] && Robbed(ws, r.sys.workers, me, r.batch)
            else SameLocals(ws, r.sys.workers)
  }

  /** Migrated-in work: the inbox head, taken by a won dequeue, with the
      worker marked active and the counter then dropped by two. */
  function Drain(s: System, me: int): (r: Scarce)
    requires Valid(s) && Owns(s, me) && s.workers[me].remote != []
    ensures r.Found? && r.migrated && r.batch == [s.workers[me].remote[0]]
    ensures r.sys.active == s.active - 1
    ensures r.sys.workers == s.workers[me := s.workers[me].(remote := s.workers[me].remote[1..])]
    ensures Valid(r.sys) && Held(r.sys.workers) + ScarceTaken(r) == Held(s.workers)
    ensures Sought(s.workers, me, r)
  {
    var head := s.workers[me].remote[0];
    var t := TakeRemote(s, me);
    var u := SetActive(t);
    var r := Found([head], u.(active := u.active - 2), true);
    InboxSought(s.workers, me, r);
    r
  }

  /** Taking the inbox head is a search that found migrated-in work. */
  lemma InboxSought(ws: seq<Worker.State>, me: int, r: Scarce)
    requires 0 <= me < |ws| && ws[me].remote != []
    requires r.Found? && r.migrated && r.batch == [ws[me].remote[0]]
    requires r.sys.workers == ws[me := ws[me].(remote := ws[me].remote[1..])]
    ensures Sought(ws, me, r)
  {
    var us := r.sys.workers;
    forall j | 0 <= j < |ws|
      ensures us[j] == ws[j].(seed := us[j].seed, local := us[j].local, remote := us[j].remote)
    {
    }
  }

  /** A search that goes round again after the unsuccessful steal `g`
      reports, as seen from the table before that steal, what it reports
      from the table after it. */
  lemma Onward(s: System, me: int, g: Grab, r: Scarce)
    requires Owns(s, me) && g.Missed? && s.workers[me].remote == []
    requires Searched(s.workers, g.sys.workers, me) && SameLocals(s.workers, g.sys.workers)
    requires g.sys.workers[me].remote == s.workers[me].remote
    requires Sought(g.sys.workers, me, r)
    ensures Sought(s.workers, me, r)
  {
    SearchedTwice(s.workers, g.sys.workers, r.sys.workers, me);
    if r.Found? {
      RobbedKept(s.workers, g.sys.workers, r.sys.workers, me, r.batch);
    }
  }

  /** `try_get_scarce_work`: the worker declares itself inactive and searches.
      Work that migrated in leaves the counter two below where it was; a
      steal restores it; the search only gives up when this worker was the
      last one marked active. */
  function ScarceLoop(s: System, me: int, rounds: seq<Round>): (r: Scarce)
    requires Valid(s) && Owns(s, me)
    ensures Valid(r.sys) && |r.sys.workers| == |s.workers|
    ensures r.Found? ==> |r.batch| == 1
    ensures r.Found? ==> r.sys.active == s.active - (if r.migrated then 2 else 0)
    ensures r.AllIdle? ==> s.active == 1 && IsTerminated(r.sys)
    ensures r.StillSearching? ==> r.sys.active == s.active - 1
    ensures Held(r.sys.workers) + ScarceTaken(r) == Held(s.workers)
    ensures r.sys.workers[me].chain == s.workers[me].chain
    ensures r.sys.workers[me].credit == s.workers[me].credit
    ensures Sought(s.workers, me, r)
    ensures r.AllIdle? ==> s.workers[me].remote == []
  {
    ScarceRounds(SetInactive(s), me, rounds)
  }

  /** A turn with a non-empty inbox only tries the inbox: a won dequeue ends
      the search with the inbox head, a lost one goes round again with
      nothing changed. */
  lemma ScarceTriesInboxFirst(s: System, me: int, rounds: seq<Round>)
    requires Valid(s) && Owns(s, me)
    requires rounds != [] && s.workers[me].remote != []
    ensures var r := ScarceRounds(s, me, rounds);
            && (rounds[0].remoteOk ==>
                  r.Found? && r.migrated && r.batch == [s.workers[me].remote[0]]
                  && r.sys.active == s.active - 1)
            && (!rounds[0].remoteOk ==> r == ScarceRounds(s, me, rounds[1..]))
  {
  }

  /** A turn with an empty inbox is decided by one counting steal: its
      success ends the search with the stolen node; its failure ends the
      search when the counter reads zero, and otherwise the search goes
      round again from the table the steal left. */
  lemma ScarceRoundGivesUp(s: System, me: int, rounds: seq<Round>)
    requires Valid(s) && Owns(s, me)
    requires rounds != [] && s.workers[me].remote == []
    ensures var g := TrySteal(s, me, true, rounds[0].stealOk);
            var r := ScarceRounds(s, me, rounds);
            && (g.Got? ==> r == Found(g.batch, g.sys, false))
            && (g.Missed? && s.active == 0 ==> r == AllIdle(g.sys))
            && (g.Missed? && s.active != 0 ==> r == ScarceRounds(g.sys, me, rounds[1..]))
  {
    var g := TrySteal(s, me, true, rounds[0].stealOk);
    assert ScarceRounds(s, me, rounds) ==
      if g.Got? then Found(g.batch, g.sys, false)
      else if IsTerminated(g.sys) then AllIdle(g.sys)
      else ScarceRounds(g.sys, me, rounds[1..]);
  }

  /** Entered with the counter at one (this worker the last one busy) and an
      empty inbox, the search gives up in its first turn exactly when the
      first victim in scan order with a non-empty local queue loses its
      dequeue, or there is no such victim. */
  lemma ScarceLoopGivesUp(s: System, me: int, rounds: seq<Round>)
    requires Valid(s) && Owns(s, me)
    requires rounds != [] && s.workers[me].remote == [] && s.active == 1
    ensures var n := |s.workers|;
            var idx := ScanIndices(StartIndex(s.workers[me].seed, n), n);
            (forall k :: 0 <= k < |idx| ==> 0 <= idx[k] < n) &&
            var c := Candidates(s.workers, me, idx);
            (ScarceLoop(s, me, rounds).AllIdle? <==> c == [] || !rounds[0].stealOk(c[0]))
  {
    var t := SetInactive(s);
    ScarceRoundGivesUp(t, me, rounds);
    StealGivesUpAtZero(t, me, rounds[0].stealOk);
  }

  /** A worker alone in the system with nothing queued and a zero counter
      after its own decrement gives up in the first round. */
  lemma LoneIdleWorkerStops(s: System, rounds: seq<Round>)
    requires Valid(s) && |s.workers| == 1 && s.active == 1
    requires s.workers[0].remote == [] && rounds != []
    ensures ScarceLoop(s, 0, rounds).AllIdle?
  {
    var s1 := s.(active := 0);
    LoneWorkerNeverSteals(s1, true, rounds[0].stealOk);
  }

  /** Where a batch came from, in the order the sources are tried. */
  datatype Source = Remote | Local | Stolen | Io | Scarce(fromInbox: bool)

  /** Everything the replenishment depends on that the model treats as
      input: the race outcomes of each lock-free dequeue, what the I/O poll
      reports, and the turns the scarce-work search runs. */
  datatype Env = Env(remoteOk: bool, localOk: bool, stealOk: int -> bool, io: IoPoll, rounds: seq<Round>)

  datatype Refill =
    | Refilled(src: Source, batch: seq<Node>, sys: System)
    | Terminated(sys: System)
    | IoFailed(sys: System)
    | Searching(sys: System)

  predicate RemoteReady(s: System, me: int, e: Env)
    requires Owns(s, me)
  {
    s.workers[me].remote != [] && e.remoteOk
  }

  predicate LocalReady(s: System, me: int, e: Env)
    requires Owns(s, me)
  {
    s.workers[me].local != [] && e.localOk
  }

  predicate StealReady(s: System, me: int, e: Env)
    requires Valid(s) && Owns(s, me)
  {
    TrySteal(s, me, false, e.stealOk).Got?
  }

  /** Nodes that enter the worker table with a refill: the woken queue, when
      the batch came from I/O. */
  function Arrived(r: Refill): multiset<Node> {
    if r.Refilled? && r.src == Io then multiset(r.batch) else multiset{}
  }

  /** Nodes handed out by a refill. */
  function Handed(r: Refill): multiset<Node> {
    if r.Refilled? then multiset(r.batch) else multiset{}
  }

  /** What every refill delivers, whichever source it came from: a valid
      table of the same size, real work in the batch, every node accounted
      for, and worker `me`'s chain and credit left alone. */
  predicate Refills(s: System, me: int, rf: Refill)
    requires Owns(s, me)
  {
    && Valid(rf.sys) && |rf.sys.workers| == |s.workers|
    && (rf.Refilled? ==> rf.batch != [] && Payload(rf.batch))
    && (rf.Terminated? ==> IsTerminated(rf.sys))
    && Held(rf.sys.workers) + Handed(rf) == Held(s.workers) + Arrived(rf)
    && rf.sys.workers[me].chain == s.workers[me].chain
    && rf.sys.workers[me].credit == s.workers[me].credit
  }

  /** The table a refill of worker `me` leaves behind, by source.  A refill
      from the inbox or the local queue removed exactly the head it hands
      out.  A scarce-work search that drained the inbox removed its head.  A
      steal, or a search that stole, took one other worker's local head.
      Every other outcome changed no queue.  Apart from that, only `me`'s
      seed may have moved, by the steals on the way. */
  predicate Leaves(s: System, me: int, rf: Refill)
    requires Owns(s, me)
  {
    && Searched(s.workers, rf.sys.workers, me)
    && if rf.Refilled? && rf.src == Remote then
         && s.workers[me].remote != []
         && rf.sys.workers == s.workers[me := s.workers[me].(remote := s.workers[me].remote[1..])]
       else if rf.Refilled? && rf.src == Local then
         && s.workers[me].local != []
         && rf.sys.workers == s.workers[me := s.workers[me].(local := s.workers[me].local[1..])]
       else if rf.Refilled? && rf.src == Scarce(true) then
         && s.workers[me].remote != []
         && rf.sys.workers[me].remote == s.workers[me].remote[1..]
         && SameLocals(s.workers, rf.sys.workers)
       else
         && rf.sys.workers[me].remote == s.workers[me].remote
         && if rf.Refilled? && (rf.src == Stolen || rf.src == Scarce(false))
            then Robbed(s.workers, rf.sys.workers, me, rf.batch)
            else SameLocals(s.workers, rf.sys.workers)
  }

  /** The counter change a refilled batch carries: migrated-in work, taken
      straight from the remote queue or found by the scarce-work search,
      drops it by two. */
  function Drop(src: Source): int {
    if src == Remote || src == Scarce(true) then 2 else 0
  }

  /** The last two sources of `scheduler_loop`, tried once stealing has
      failed on table `t`: completed I/O, then the scarce-work search. */
  function LastResort(t: System, me: int, e: Env): (r: Refill)
    requires Valid(t) && Owns(t, me) && PollValid(e.io)
    ensures Refills(t, me, r)
    ensures r.Refilled? ==> r.src == Io || r.src.Scarce?
    ensures r.Refilled? && r.src == Io <==> e.io.count > 0
    ensures r.Refilled? && r.src == Io ==> r.batch == e.io.woken && r.sys == t
    ensures r.IoFailed? <==> e.io.count < 0
    ensures r.Refilled? && r.src != Io ==> |r.batch| == 1
    ensures r.Refilled? ==> r.sys.active == t.active - Drop(r.src)
    ensures r.IoFailed? ==> r.sys == t
    ensures r.Terminated? ==> t.active == 1
    ensures Leaves(t, me, r)
    ensures e.io.count == 0 ==> Reports(ScarceLoop(t, me, e.rounds), r)
  {
    match TryPerformIo(e.io)
    case IoBatch(b) => Refilled(Io, b, t)
    case IoError => IoFailed(t)
    case NoIo => Search(t, me, ScarceLoop(t, me, e.rounds))
  }

  /** The refill `r` is the scarce-work search's outcome `sc` passed on: the
      same table, a found node as the batch (tagged with whether it came
      from the inbox), giving up as termination and a search cut short as
      still searching. */
  predicate Reports(sc: Scarce, r: Refill) {
    && r.sys == sc.sys
    && (r.Refilled? <==> sc.Found?)
    && (r.Terminated? <==> sc.AllIdle?)
    && (r.Searching? <==> sc.StillSearching?)
    && (r.Refilled? ==> r.src == Scarce(sc.migrated) && r.batch == sc.batch)
  }

  /** The outcome `sc` of the scarce-work search as a refill. */
  function Search(t: System, me: int, sc: Scarce): (r: Refill)
    requires Valid(t) && Owns(t, me)
    requires Valid(sc.sys) && |sc.sys.workers| == |t.workers|
    requires sc.Found? ==> |sc.batch| == 1
    requires sc.Found? ==> sc.sys.active == t.active - (if sc.migrated then 2 else 0)
    requires sc.AllIdle? ==> t.active == 1 && IsTerminated(sc.sys)
    requires Held(sc.sys.workers) + ScarceTaken(sc) == Held(t.workers)
    requires sc.sys.workers[me].chain == t.workers[me].chain
    requires sc.sys.workers[me].credit == t.workers[me].credit
    requires Sought(t.workers, me, sc)
    ensures Refills(t, me, r)
    ensures Leaves(t, me, r)
    ensures !r.IoFailed?
    ensures r.Refilled? ==> r.src.Scarce? && |r.batch| == 1
    ensures r.Refilled? ==> r.sys.active == t.active - Drop(r.src)
    ensures r.Terminated? ==> t.active == 1
    ensures Reports(sc, r)
  {
    if sc.Found? then Scavenged(t, me, sc)
    else
      assert Held(sc.sys.workers) == Held(t.workers) by {
        assert ScarceTaken(sc) == multiset{};
        assert Held(sc.sys.workers) + multiset{} == Held(sc.sys.workers);
      }
      var r := if sc.AllIdle? then Terminated(sc.sys) else Searching(sc.sys);
      SoughtLeaves(t, me, sc, r);
      r
  }

  /** A batch the scarce-work search found, as a refill. */
  function Scavenged(t: System, me: int, sc: Scarce): (r: Refill)
    requires Valid(t) && Owns(t, me) && sc.Found?
    requires Valid(sc.sys) && |sc.sys.workers| == |t.workers| && |sc.batch| == 1
    requires sc.sys.active == t.active - (if sc.migrated then 2 else 0)
    requires Held(sc.sys.workers) + multiset(sc.batch) == Held(t.workers)
    requires sc.sys.workers[me].chain == t.workers[me].chain
    requires sc.sys.workers[me].credit == t.workers[me].credit
    requires Sought(t.workers, me, sc)
    ensures Refills(t, me, r)
    ensures Leaves(t, me, r)
    ensures r.Refilled? && r.src == Scarce(sc.migrated) && r.batch == sc.batch
    ensures r.sys.active == t.active - Drop(r.src)
  {
    var r := Refilled(Scarce(sc.migrated), sc.batch, sc.sys);
    RefillsFound(t, me, r);
    SoughtLeaves(t, me, sc, r);
    r
  }

  /** A batch of one or more nodes taken out of the queues of table `t`,
      with worker `me`'s chain and credit left alone, is a refill of `t`. */
  lemma RefillsFound(t: System, me: int, r: Refill)
    requires Valid(t) && Owns(t, me) && r.Refilled? && r.src != Io && r.batch != []
    requires Valid(r.sys) && |r.sys.workers| == |t.workers|
    requires Held(r.sys.workers) + multiset(r.batch) == Held(t.workers)
    requires r.sys.workers[me].chain == t.workers[me].chain
    requires r.sys.workers[me].credit == t.workers[me].credit
    ensures Refills(t, me, r)
  {
    RefillPayload(t, r.sys, r.batch);
    assert Handed(r) == multiset(r.batch) && Arrived(r) == multiset{};
    assert Held(t.workers) + multiset{} == Held(t.workers);
  }

  /** The refill that reports the search outcome `sc` leaves the table the
      search left. */
  lemma SoughtLeaves(t: System, me: int, sc: Scarce, r: Refill)
    requires Owns(t, me) && Sought(t.workers, me, sc)
    requires r.sys == sc.sys && (r.Refilled? <==> sc.Found?)
    requires r.Refilled? ==> r.src == Scarce(sc.migrated) && r.batch == sc.batch
    ensures Leaves(t, me, r)
  {
  }

  /** What follows a non-counting `try_steal_work` whose outcome is `g`:
      the stolen batch if there is one, otherwise the last two sources. */
  function AfterSteal(s: System, me: int, g: Grab, e: Env): (r: Refill)
    requires Valid(s) && Owns(s, me) && PollValid(e.io)
    requires Valid(g.sys) && |g.sys.workers| == |s.workers| && g.sys.active == s.active
    requires g.Got? ==> |g.batch| == 1
    requires Held(g.sys.workers) + Taken(g) == Held(s.workers)
    requires g.sys.workers[me].chain == s.workers[me].chain
    requires g.sys.workers[me].credit == s.workers[me].credit
    requires Searched(s.workers, g.sys.workers, me) && g.sys.workers[me].remote == s.workers[me].remote
    requires g.Missed? ==> SameLocals(s.workers, g.sys.workers)
    requires g.Got? ==> Robbed(s.workers, g.sys.workers, me, g.batch)
    ensures Refills(s, me, r)
    ensures Leaves(s, me, r)
    ensures (r.Refilled? && r.src == Io) || r.IoFailed? ==> r.sys == g.sys
    ensures r.Refilled? ==> r.src != Remote && r.src != Local
    ensures r.Refilled? && r.src == Stolen <==> g.Got?
    ensures r.Refilled? && r.src == Stolen ==> r.batch == g.batch && r.sys == g.sys
    ensures r.Refilled? && r.src == Io <==> g.Missed? && e.io.count > 0
    ensures r.Refilled? && r.src == Io ==> r.batch == e.io.woken
    ensures r.IoFailed? <==> g.Missed? && e.io.count < 0
    ensures (r.Refilled? && r.src.Scarce?) || r.Terminated? || r.Searching? ==>
      g.Missed? && e.io.count == 0
    ensures r.Refilled? && r.src != Io ==> |r.batch| == 1
    ensures r.Refilled? ==> r.sys.active == s.active - Drop(r.src)
    ensures r.IoFailed? ==> r.sys.active == s.active
    ensures r.Terminated? ==> s.active == 1
  {
    if g.Got? then
      RefillsTaken(s, me, Stolen, g);
      Refilled(Stolen, g.batch, g.sys)
    else
      var r := LastResort(g.sys, me, e);
      MissedHolds(s, g);
      RefillsLater(s, g.sys, me, r);
      LeavesLater(s, g.sys, me, r);
      r
  }

  /** After a missed steal and an empty I/O poll, the refill is the outcome
      of the scarce-work search run from the table the steal left. */
  lemma MissSearches(s: System, me: int, g: Grab, e: Env)
    requires Valid(s) && Owns(s, me) && PollValid(e.io)
    requires Valid(g.sys) && |g.sys.workers| == |s.workers| && g.sys.active == s.active
    requires Held(g.sys.workers) + Taken(g) == Held(s.workers)
    requires g.sys.workers[me].chain == s.workers[me].chain
    requires g.sys.workers[me].credit == s.workers[me].credit
    requires Searched(s.workers, g.sys.workers, me) && g.sys.workers[me].remote == s.workers[me].remote
    requires g.Missed? && SameLocals(s.workers, g.sys.workers)
    requires e.io.count == 0
    ensures Reports(ScarceLoop(g.sys, me, e.rounds), AfterSteal(s, me, g, e))
  {
    assert AfterSteal(s, me, g, e) == LastResort(g.sys, me, e);
  }

  /** `try_get_local`, then the later sources. */
  function LocalOrLater(s: System, me: int, e: Env): (r: Refill)
    requires Valid(s) && Owns(s, me) && PollValid(e.io)
    ensures Refills(s, me, r)
    ensures r.Refilled? ==> r.src != Remote
    ensures r.Refilled? && r.src == Local <==> LocalReady(s, me, e)
    ensures r.Refilled? && r.src == Local ==>
      s.workers[me].local != [] && r.batch == [s.workers[me].local[0]]
    ensures r.Refilled? && r.src == Stolen <==> !LocalReady(s, me, e) && StealReady(s, me, e)
    ensures r.Refilled? && r.src == Stolen ==>
      var g := TrySteal(s, me, false, e.stealOk); r.batch == g.batch && r.sys == g.sys
    ensures Leaves(s, me, r)
    ensures r.Refilled? && r.src == Io <==>
      !LocalReady(s, me, e) && !StealReady(s, me, e) && e.io.count > 0
    ensures r.Refilled? && r.src == Io ==> r.batch == e.io.woken
    ensures r.IoFailed? <==> !LocalReady(s, me, e) && !StealReady(s, me, e) && e.io.count < 0
    ensures (r.Refilled? && r.src.Scarce?) || r.Terminated? || r.Searching? ==>
      !LocalReady(s, me, e) && !StealReady(s, me, e) && e.io.count == 0
    ensures r.Refilled? && r.src != Io ==> |r.batch| == 1
    ensures r.Refilled? ==> r.sys.active == s.active - Drop(r.src)
    ensures r.IoFailed? ==> r.sys.active == s.active
    ensures r.Terminated? ==> s.active == 1
  {
    if TryGetLocal(s, me, e.localOk).Got? then FromLocal(s, me, e)
    else
      StealSearched(s, me, false, e.stealOk);
      AfterSteal(s, me, TrySteal(s, me, false, e.stealOk), e)
  }

  /** The `if … else if` chain of `scheduler_loop`: the sources are tried in
      a fixed order (remote queue, local queue, steal, I/O, scarce-work
      search) and the first one that yields a batch wins.  An I/O error is
      the assertion failure of `try_perform_io`. */
  function Replenish(s: System, me: int, e: Env): (r: Refill)
    requires Valid(s) && Owns(s, me) && PollValid(e.io)
    ensures Refills(s, me, r)
    ensures r.Refilled? && r.src == Remote <==> RemoteReady(s, me, e)
    ensures r.Refilled? && r.src == Remote ==>
      s.workers[me].remote != [] && r.batch == [s.workers[me].remote[0]]
    ensures r.Refilled? && r.src == Local <==> !RemoteReady(s, me, e) && LocalReady(s, me, e)
    ensures r.Refilled? && r.src == Local ==>
      s.workers[me].local != [] && r.batch == [s.workers[me].local[0]]
    ensures r.Refilled? && r.src == Stolen <==>
      !RemoteReady(s, me, e) && !LocalReady(s, me, e) && StealReady(s, me, e)
    ensures r.Refilled? && r.src == Stolen ==>
      var g := TrySteal(s, me, false, e.stealOk); r.batch == g.batch && r.sys == g.sys
    ensures Leaves(s, me, r)
    ensures r.Refilled? && r.src == Io <==>
      !RemoteReady(s, me, e) && !LocalReady(s, me, e) && !StealReady(s, me, e) && e.io.count > 0
    ensures r.Refilled? && r.src == Io ==> r.batch == e.io.woken
    ensures r.IoFailed? <==>
      !RemoteReady(s, me, e) && !LocalReady(s, me, e) && !StealReady(s, me, e) && e.io.count < 0
    ensures (r.Refilled? && r.src.Scarce?) || r.Terminated? || r.Searching? ==>
      !RemoteReady(s, me, e) && !LocalReady(s, me, e) && !StealReady(s, me, e) && e.io.count == 0
    ensures r.Refilled? && r.src != Io ==> |r.batch| == 1
    ensures r.Refilled? ==> r.sys.active == s.active - Drop(r.src)
    ensures r.IoFailed? ==> r.sys.active == s.active
    ensures r.Terminated? ==> s.active == 1
  {
    if TryGetRemote(s, me, e.remoteOk).Got? then FromRemote(s, me, e)
    else LocalOrLater(s, me, e)
  }

  /** When the remote queue, the local queue, the steal and the I/O poll all
      come up empty, the refill is the scarce-work search's outcome, run
      from the table the failed steal left; giving up then means the inbox
      was empty. */
  lemma ReplenishSearches(s: System, me: int, e: Env)
    requires Valid(s) && Owns(s, me) && PollValid(e.io)
    requires !RemoteReady(s, me, e) && !LocalReady(s, me, e) && !StealReady(s, me, e)
    requires e.io.count == 0
    ensures var r := Replenish(s, me, e);
            && Reports(ScarceLoop(TrySteal(s, me, false, e.stealOk).sys, me, e.rounds), r)
            && (r.Terminated? ==> s.workers[me].remote == [])
  {
    var g := TrySteal(s, me, false, e.stealOk);
    StealSearched(s, me, false, e.stealOk);
    assert Replenish(s, me, e) == AfterSteal(s, me, g, e);
    MissSearches(s, me, g, e);
  }

  /** The refill `try_get_remote` delivers when its dequeue wins. */
  function FromRemote(s: System, me: int, e: Env): (r: Refill)
    requires Valid(s) && Owns(s, me) && RemoteReady(s, me, e)
    ensures Refills(s, me, r) && Leaves(s, me, r)
    ensures r.Refilled? && r.src == Remote && r.batch == [s.workers[me].remote[0]]
    ensures r.sys.active == s.active - 2
  {
    var g := TryGetRemote(s, me, e.remoteOk);
    RefillsTaken(s, me, Remote, g);
    var r := Refilled(Remote, g.batch, g.sys);
    OwnQueueLeaves(s, me, r);
    r
  }

  /** The refill `try_get_local` delivers when its dequeue wins. */
  function FromLocal(s: System, me: int, e: Env): (r: Refill)
    requires Valid(s) && Owns(s, me) && LocalReady(s, me, e)
    ensures Refills(s, me, r) && Leaves(s, me, r)
    ensures r.Refilled? && r.src == Local && r.batch == [s.workers[me].local[0]]
    ensures r.sys.active == s.active
  {
    var g := TryGetLocal(s, me, e.localOk);
    RefillsTaken(s, me, Local, g);
    var r := Refilled(Local, g.batch, g.sys);
    OwnQueueLeaves(s, me, r);
    r
  }

  /** A refill that took the head of one of `me`'s own queues and changed
      nothing else. */
  lemma OwnQueueLeaves(s: System, me: int, rf: Refill)
    requires Owns(s, me) && rf.Refilled? && (rf.src == Remote || rf.src == Local)
    requires rf.src == Remote ==>
      s.workers[me].remote != [] &&
      rf.sys.workers == s.workers[me := s.workers[me].(remote := s.workers[me].remote[1..])]
    requires rf.src == Local ==>
      s.workers[me].local != [] &&
      rf.sys.workers == s.workers[me := s.workers[me].(local := s.workers[me].local[1..])]
    ensures Leaves(s, me, rf)
  {
    var ws, us := s.workers, rf.sys.workers;
    forall j | 0 <= j < |ws|
      ensures us[j] == ws[j].(seed := us[j].seed, local := us[j].local, remote := us[j].remote)
    {
    }
  }

  /** A refill that came from a queue of table `s`. */
  lemma RefillsTaken(s: System, me: int, src: Source, g: Grab)
    requires Valid(s) && Owns(s, me) && g.Got? && src != Io
    requires Valid(g.sys) && |g.sys.workers| == |s.workers| && |g.batch| == 1
    requires Held(g.sys.workers) + Taken(g) == Held(s.workers)
    requires g.sys.workers[me].chain == s.workers[me].chain
    requires g.sys.workers[me].credit == s.workers[me].credit
    ensures Refills(s, me, Refilled(src, g.batch, g.sys))
  {
    RefillPayload(s, g.sys, g.batch);
  }

  /** A refill found later, on a table `t` that holds what `s` holds. */
  lemma RefillsLater(s: System, t: System, me: int, rf: Refill)
    requires Owns(s, me) && |t.workers| == |s.workers|
    requires Held(t.workers) == Held(s.workers)
    requires t.workers[me].chain == s.workers[me].chain
    requires t.workers[me].credit == s.workers[me].credit
    requires Refills(t, me, rf)
    ensures Refills(s, me, rf)
  {
  }

  /** What a refill found on a table `t` that an unsuccessful steal left
      behind, starting from `s`, leaves behind as seen from `s`. */
  lemma LeavesLater(s: System, t: System, me: int, rf: Refill)
    requires Owns(s, me) && Searched(s.workers, t.workers, me)
    requires t.workers[me].remote == s.workers[me].remote && SameLocals(s.workers, t.workers)
    requires Leaves(t, me, rf)
    requires !(rf.Refilled? && (rf.src == Remote || rf.src == Local))
    ensures Leaves(s, me, rf)
  {
    SearchedTwice(s.workers, t.workers, rf.sys.workers, me);
    if rf.Refilled? && (rf.src == Stolen || rf.src == Scarce(false)) {
      RobbedKept(s.workers, t.workers, rf.sys.workers, me, rf.batch);
    }
  }

  /** A missed grab leaves the table holding what it held. */
  lemma MissedHolds(s: System, g: Grab)
    requires g.Missed? && Held(g.sys.workers) + Taken(g) == Held(s.workers)
    ensures Held(g.sys.workers) == Held(s.workers)
  {
    assert Taken(g) == multiset{};
    assert Held(g.sys.workers) + multiset{} == Held(g.sys.workers);
  }

  /** A batch taken out of a valid system is real work. */
  lemma RefillPayload(s: System, t: System, batch: seq<Node>)
    requires Valid(s)
    requires Held(t.workers) + multiset(batch) == Held(s.workers)
    ensures Payload(batch)
  {
    ValidHoldsNoSentinel(s.workers);
  }

  datatype Outcome =
    | Resumed(node: Node, sys: System)
    | Exited(sys: System)
    | Aborted(sys: System)
    | Spinning(sys: System)

  /** Installs `batch` as worker `me`'s in-hand chain with `sched` behind it
      and resumes the batch's first node; the rest of the table is untouched. */
  function Install(t: System, me: int, batch: seq<Node>, sched: Node): (r: Resume)
    requires Valid(t) && Owns(t, me) && Worker.Cursor(t.workers[me]) == Sentinel
    requires batch != [] && Payload(batch) && sched != Sentinel
    ensures Valid(r.sys) && |r.sys.workers| == |t.workers| && r.sys.active == t.active
    ensures r.node == batch[0]
    ensures r.sys.workers[me].chain == batch[1..] + [sched]
    ensures r.sys.workers[me].credit == Worker.LifoCredit
    ensures r.sys.workers[me] == t.workers[me].(chain := batch[1..] + [sched], credit := Worker.LifoCredit)
    ensures forall j :: 0 <= j < |t.workers| && j != me ==> r.sys.workers[j] == t.workers[j]
    ensures Held(r.sys.workers) + multiset{r.node} == Held(t.workers) + multiset(batch) + multiset{sched}
  {
    var (node, w) := Worker.Reserve(t.workers[me], batch, sched);
    StepHeld(t.workers, me, w, node, batch, sched);
    Resume(node, Put(t, me, w))
  }

  /** The node accounting of installing a batch into worker `i`. */
  lemma StepHeld(ws: seq<Worker.State>, i: int, w: Worker.State, node: Node, batch: seq<Node>, sched: Node)
    requires 0 <= i < |ws|
    requires Worker.Held(w) + multiset{node} == Worker.Held(ws[i]) + multiset(batch) + multiset{sched}
    ensures Held(ws[i := w]) + multiset{node} == Held(ws) + multiset(batch) + multiset{sched}
  {
    HeldUpdate(ws, i, w);
    var x, y := Held(ws[i := w]), Held(ws);
    var c, v := Worker.Held(ws[i]), Worker.Held(w);
    var m := multiset(batch);
    forall n
      ensures ((x + multiset{node}) + c)[n] == ((y + m + multiset{sched}) + c)[n]
    {
      assert (x + c)[n] == (y + v)[n];
      assert (v + multiset{node})[n] == (c + m + multiset{sched})[n];
    }
    assert (x + multiset{node}) + c == (y + m + multiset{sched}) + c;
    CancelShared(x + multiset{node}, y + m + multiset{sched}, c);
  }

  /** Whatever a refill hands out was in the table or arrived with it, so a
      node found in neither is not in the batch. */
  lemma FreshStaysOut(h: multiset<Node>, m: multiset<Node>, h0: multiset<Node>, a: multiset<Node>, x: Node)
    requires h + m == h0 + a && x !in h0 && x !in a
    ensures x !in m
  {
    assert (h + m)[x] == 0;
  }

  /** Chains the two accountings: the refill and the installation. */
  lemma StepCount(u: multiset<Node>, t: multiset<Node>, m: multiset<Node>, h0: multiset<Node>,
                  a: multiset<Node>, node: Node, sched: Node)
    requires u + multiset{node} == t + m + multiset{sched}
    requires t + m == h0 + a
    ensures u + multiset{node} == h0 + multiset{sched} + a
  {
    forall n ensures (u + multiset{node})[n] == (h0 + multiset{sched} + a)[n] {
      assert (t + m)[n] == (h0 + a)[n];
    }
  }

  /** One pass of `scheduler_loop` after the refill `rf`, entered when the
      in-hand chain is used up.  On a refill the batch becomes the chain with
      `sched` (the scheduler's own continuation, a fresh node) queued behind
      it, the LIFO credit is set to two, and the batch's first node is
      resumed.  With no work anywhere the loop returns; an I/O error aborts; a
      search cut short by the round bound is still spinning. */
  function SchedulerStep(s: System, me: int, rf: Refill, sched: Node): (r: Outcome)
    requires Valid(s) && Owns(s, me) && Refills(s, me, rf)
    requires Worker.Cursor(s.workers[me]) == Sentinel
    requires sched != Sentinel && sched !in Held(s.workers) && sched !in Arrived(rf)
    ensures Valid(r.sys) && |r.sys.workers| == |s.workers|
    ensures r.Resumed? <==> rf.Refilled?
    ensures r.Exited? <==> rf.Terminated?
    ensures r.Aborted? <==> rf.IoFailed?
    ensures r.Exited? ==> IsTerminated(r.sys)
    ensures r.Resumed? ==>
      && r.node == rf.batch[0] && r.node != Sentinel && r.node != sched
      && r.sys.workers[me].chain == rf.batch[1..] + [sched]
      && r.sys.workers[me].credit == Worker.LifoCredit
      && r.sys.active == rf.sys.active
    ensures !r.Resumed? ==> r.sys == rf.sys
    ensures r.Resumed? ==>
      r.sys == rf.sys.(workers := rf.sys.workers[me := rf.sys.workers[me].(chain := rf.batch[1..] + [sched],
                                                                              credit := Worker.LifoCredit)])
    ensures r.Resumed? ==>
      Held(r.sys.workers) + multiset{r.node} == Held(s.workers) + multiset{sched} + Arrived(rf)
  {
    if rf.Refilled? then
      var ins := Install(rf.sys, me, rf.batch, sched);
      FreshStaysOut(Held(rf.sys.workers), multiset(rf.batch), Held(s.workers), Arrived(rf), sched);
      StepCount(Held(ins.sys.workers), Held(rf.sys.workers), multiset(rf.batch), Held(s.workers), Arrived(rf), ins.node, sched);
      Resumed(ins.node, ins.sys)
    else if rf.Terminated? then Exited(rf.sys)
    else if rf.IoFailed? then Aborted(rf.sys)
    else Spinning(rf.sys)
  }

  /** A whole pass of the scheduler loop: replenish, then install. */
  function SchedulerPass(s: System, me: int, e: Env, sched: Node): (r: Outcome)
    requires Valid(s) && Owns(s, me) && PollValid(e.io)
    requires Worker.Cursor(s.workers[me]) == Sentinel
    requires sched != Sentinel && sched !in Held(s.workers) && sched !in e.io.woken
    ensures Valid(r.sys) && |r.sys.workers| == |s.workers|
    ensures r.Resumed? <==> Replenish(s, me, e).Refilled?
    ensures r.Exited? ==> s.active == 1 && IsTerminated(r.sys)
    ensures r.Aborted? <==> e.io.count < 0 && Replenish(s, me, e).IoFailed?
    ensures r.Resumed? ==>
      && r.node != Sentinel && r.node != sched
      && r.sys.workers[me].chain != [] && Last(r.sys.workers[me].chain) == sched
      && r.sys.workers[me].credit == Worker.LifoCredit
    ensures r.Resumed? ==>
      Held(r.sys.workers) + multiset{r.node} ==
        Held(s.workers) + multiset{sched} + Arrived(Replenish(s, me, e))
    ensures !r.Resumed? ==> Held(r.sys.workers) == Held(s.workers)
  {
    var rf := Replenish(s, me, e);
    SchedulerStep(s, me, rf, sched)
  }

  /** When every source before the scarce-work search comes up empty, the
      pass resumes the node the search found, returns exactly when the
      search gave up (and then the inbox was empty), and spins exactly when
      the search was cut short. */
  lemma PassSearches(s: System, me: int, e: Env, sched: Node)
    requires Valid(s) && Owns(s, me) && PollValid(e.io)
    requires Worker.Cursor(s.workers[me]) == Sentinel
    requires sched != Sentinel && sched !in Held(s.workers) && sched !in e.io.woken
    requires !RemoteReady(s, me, e) && !LocalReady(s, me, e) && !StealReady(s, me, e)
    requires e.io.count == 0
    ensures var r := SchedulerPass(s, me, e, sched);
            var sc := ScarceLoop(TrySteal(s, me, false, e.stealOk).sys, me, e.rounds);
            && (r.Resumed? <==> sc.Found?)
            && (r.Resumed? ==> sc.Found? && r.node == sc.batch[0])
            && (r.Exited? <==> sc.AllIdle?)
            && (r.Exited? ==> s.workers[me].remote == [] && r.sys == sc.sys)
            && (r.Spinning? <==> sc.StillSearching?)
            && (r.Spinning? ==> r.sys == sc.sys)
            && !r.Aborted?
  {
    ReplenishSearches(s, me, e);
  }

  /** What one pass leaves of the table: the worker's record is the one the
      replenishment left apart from its new chain and credit, and every other
      worker differs from before the pass at most in its local queue. */
  lemma PassFrame(s: System, me: int, e: Env, sched: Node)
    requires Valid(s) && Owns(s, me) && PollValid(e.io)
    requires Worker.Cursor(s.workers[me]) == Sentinel
    requires sched != Sentinel && sched !in Held(s.workers) && sched !in e.io.woken
    ensures var r := SchedulerPass(s, me, e, sched);
            var rf := Replenish(s, me, e);
            && Frames(s, me, rf, r)
            && (forall j :: 0 <= j < |s.workers| && j != me ==>
                  r.sys.workers[j] == s.workers[j].(local := r.sys.workers[j].local))
            && r.sys.workers[me].id == s.workers[me].id
  {
    StepFrame(s, me, Replenish(s, me, e), sched);
  }

  /** The pass `r` after the refill `rf` kept the refill's counter and table
      apart from worker `me`'s chain and credit. */
  predicate Frames(s: System, me: int, rf: Refill, r: Outcome)
    requires Owns(s, me) && |rf.sys.workers| == |s.workers| && |r.sys.workers| == |s.workers|
  {
    && r.sys.active == rf.sys.active
    && (forall j :: 0 <= j < |s.workers| && j != me ==> r.sys.workers[j] == rf.sys.workers[j])
    && r.sys.workers[me] == rf.sys.workers[me].(chain := r.sys.workers[me].chain,
                                                credit := r.sys.workers[me].credit)
  }

  /** After any refill that leaves the table as `Leaves` says, the pass
      changes other workers at most in their local queues. */
  lemma StepFrame(s: System, me: int, rf: Refill, sched: Node)
    requires Valid(s) && Owns(s, me) && Refills(s, me, rf) && Leaves(s, me, rf)
    requires Worker.Cursor(s.workers[me]) == Sentinel
    requires sched != Sentinel && sched !in Held(s.workers) && sched !in Arrived(rf)
    ensures var r := SchedulerStep(s, me, rf, sched);
            && Frames(s, me, rf, r)
            && (forall j :: 0 <= j < |s.workers| && j != me ==>
                  r.sys.workers[j] == s.workers[j].(local := r.sys.workers[j].local))
            && r.sys.workers[me].id == s.workers[me].id
  {
    LeavesOthers(s, me, rf);
  }

  /** A refill changes other workers only in their local queues, and does
      not change who worker `me` is. */
  lemma LeavesOthers(s: System, me: int, rf: Refill)
    requires Owns(s, me) && Leaves(s, me, rf)
    ensures forall j :: 0 <= j < |s.workers| && j != me ==>
              rf.sys.workers[j] == s.workers[j].(local := rf.sys.workers[j].local)
    ensures rf.sys.workers[me].id == s.workers[me].id
  {
    var ws, us := s.workers, rf.sys.workers;
    assert Searched(ws, us, me);
    forall j | 0 <= j < |ws| && j != me
      ensures us[j] == ws[j].(local := us[j].local)
    {
      assert us[j] == ws[j].(seed := us[j].seed, local := us[j].local, remote := us[j].remote);
    }
    assert us[me] == ws[me].(seed := us[me].seed, local := us[me].local, remote := us[me].remote);
  }
}

=== FILE: steal.dfy ===
/** Work stealing (`try_steal_work`): the victim-scan order over the worker
    table, the activity marking around each attempt, and the C remainder in
    the choice of the starting index. */
module Steal {
  import opened Nodes
  import opened CInt
  import Worker
  import opened Pool

  /** Index the scan starts from, as the scheduler needs it: a remainder in
      [0, n).  The source takes C's `%` of a signed seed instead; see
      AsWrittenStart. */
  function StartIndex(seed: int, n: int): (start: int)
    requires n > 0
    ensures 0 <= start < n
    ensures seed == n * (seed / n) + start
    ensures 0 <= seed < n ==> start == seed
  {
    seed % n
  }

  /** The indices the scan loop visits, in order: start+1, start+2, ...
      (mod n), stopping before it would reach `start` again. */
  function ScanIndices(start: int, n: int): (probe: seq<int>)
    requires 0 <= start < n
    ensures |probe| == n - 1
  {
    seq(n - 1, k requires 0 <= k < n - 1 => Probe(start, n, k))
  }

  /** The index probed `k` steps after `start`, counting round the table. */
  function Probe(start: int, n: int, k: int): int {
    if start + 1 + k < n then start + 1 + k else start + 1 + k - n
  }

  lemma ProbeAt(start: int, n: int, k: int)
    requires 0 <= start < n && 0 <= k < n
    ensures (start + 1 + k) % n == Probe(start, n, k)
    ensures Probe(start, n, k) == start <==> k == n - 1
  {
    if start + 1 + k < n {
      ModBelow(start + 1 + k, n);
    } else {
      ModWrap(start + 1 + k, n);
    }
  }

  lemma ModBelow(x: int, n: int)
    requires 0 <= x < n
    ensures x % n == x
  {
  }

  lemma ModWrap(x: int, n: int)
    requires 0 < n <= x < 2 * n
    ensures x % n == x - n
  {
  }

  /** The scan loop `for (i = (start+1)%n; i != start; i = (i+1)%n)`, run
      to completion: it visits exactly the indices of ScanIndices. */
  method ScanOrder(start: int, n: int) returns (probe: seq<int>)
    requires 0 <= start < n
    ensures probe == ScanIndices(start, n)
    ensures forall k :: 0 <= k < |probe| ==> 0 <= probe[k] < n && probe[k] != start
  {
    probe := [];
    ProbeAt(start, n, 0);
    var i := (start + 1) % n;
    while i != start
      invariant |probe| < n
      invariant i == (start + 1 + |probe|) % n
      invariant probe == ScanIndices(start, n)[..|probe|]
      decreases n - |probe|
    {
      ScanStep(start, n, |probe|, i);
      probe := probe + [i];
      i := (i + 1) % n;
    }
    ProbeAt(start, n, |probe|);
    assert ScanIndices(start, n)[..n - 1] == ScanIndices(start, n);
    ScanCovers(start, n);
  }

  /** One turn of the scan loop keeps its invariant. */
  lemma ScanStep(start: int, n: int, k: int, i: int)
    requires 0 <= start < n && 0 <= k < n
    requires i == (start + 1 + k) % n && i != start
    ensures k + 1 < n
    ensures ScanIndices(start, n)[k] == i
    ensures (i + 1) % n == (start + 1 + (k + 1)) % n
  {
    ProbeAt(start, n, k);
    ProbeAt(start, n, k + 1);
    if i + 1 < n {
      ModBelow(i + 1, n);
    } else {
      ModWrap(i + 1, n);
    }
  }

  lemma ScanInRange(start: int, n: int)
    requires 0 <= start < n
    ensures forall k :: 0 <= k < n - 1 ==> 0 <= ScanIndices(start, n)[k] < n
  {
  }

  /** The scan visits every worker index other than `start` exactly once,
      always in range; with one worker it visits nothing. */
  lemma ScanCovers(start: int, n: int)
    requires 0 <= start < n
    ensures var probe := ScanIndices(start, n);
            && (forall k :: 0 <= k < |probe| ==> 0 <= probe[k] < n && probe[k] != start)
            && (forall j, k :: 0 <= j < k < |probe| ==> probe[j] != probe[k])
            && (forall i :: 0 <= i < n && i != start ==> i in probe)
  {
    var probe := ScanIndices(start, n);
    forall k | 0 <= k < |probe|
      ensures 0 <= probe[k] < n && probe[k] != start
    {
      ProbeAt(start, n, k);
    }
    forall j, k | 0 <= j < k < |probe|
      ensures probe[j] != probe[k]
    {
      ProbeAt(start, n, j);
      ProbeAt(start, n, k);
    }
    forall i | 0 <= i < n && i != start
      ensures i in probe
    {
      var k := if i > start then i - start - 1 else i - start - 1 + n;
      ProbeAt(start, n, k);
      assert probe[k] == i;
    }
  }

  /** The workers a scan over `idx` tries to dequeue from: not the stealer
      itself, local queue non-empty, in scan order. */
  function Candidates(ws: seq<Worker.State>, me: int, idx: seq<int>): (c: seq<int>)
    requires forall k :: 0 <= k < |idx| ==> 0 <= idx[k] < |ws|
    ensures |c| <= |idx|
    ensures forall k :: 0 <= k < |c| ==>
              0 <= c[k] < |ws| && c[k] in idx && c[k] != me && ws[c[k]].local != []
    ensures forall k :: 0 <= k < |idx| && idx[k] != me && ws[idx[k]].local != [] ==> idx[k] in c
    decreases |idx|
  {
    if idx == [] then []
    else if idx[0] != me && ws[idx[0]].local != [] then [idx[0]] + Candidates(ws, me, idx[1..])
    else Candidates(ws, me, idx[1..])
  }

  /** Position of the first candidate whose dequeue succeeds, or |c|. */
  function FirstOk(c: seq<int>, ok: int -> bool): (k: nat)
    ensures k <= |c|
    ensures k < |c| ==> ok(c[k])
    ensures forall j :: 0 <= j < k ==> !ok(c[j])
  {
    if c == [] then 0 else if ok(c[0]) then 0 else 1 + FirstOk(c[1..], ok)
  }

  /** A failing head only shifts the first success by one. */
  lemma FirstOkShift(x: int, c: seq<int>, ok: int -> bool)
    requires !ok(x)
    ensures FirstOk([x] + c, ok) == 1 + FirstOk(c, ok)
  {
    assert ([x] + c)[1..] == c;
  }

  /** Position of the candidate a scan takes from, or |c| when it takes
      nothing.  A scan that marks activity while the counter reads zero stops
      after its first failed attempt (`giveUp`); otherwise it goes on to the
      first success. */
  function Pick(c: seq<int>, ok: int -> bool, giveUp: bool): (k: nat)
    ensures k <= |c|
  {
    if giveUp then (if c != [] && ok(c[0]) then 0 else |c|) else FirstOk(c, ok)
  }

  /** Outcome of the victim scan: the victim whose dequeue won, or none, with
      the counter value the scan leaves behind. */
  datatype Scan = Took(victim: int, active: int) | Failed(active: int)

  /** The loop of `try_steal_work` over the indices `idx`, starting with the
      counter at `active`.  For each index that is not the stealer and whose
      local queue is non-empty: mark active (when `mark`), try one dequeue
      (`ok` says whether it wins); on success stop with that victim; on
      failure mark inactive again and, if the counter then reads zero, give
      up. */
  function ScanLoop(ws: seq<Worker.State>, me: int, mark: bool, ok: int -> bool, idx: seq<int>, active: int): (r: Scan)
    requires forall k :: 0 <= k < |idx| ==> 0 <= idx[k] < |ws|
    ensures r.Took? ==> && r.victim in idx && r.victim != me
                        && 0 <= r.victim < |ws| && ws[r.victim].local != []
                        && ok(r.victim)
    decreases |idx|
  {
    if idx == [] then Failed(active)
    else
      var i := idx[0];
      if i == me || ws[i].local == [] then
        ScanLoop(ws, me, mark, ok, idx[1..], active)
      else
        var a1 := if mark then active + 1 else active;
        if ok(i) then Took(i, a1)
        else
          var a2 := if mark then a1 - 1 else a1;
          if mark && a2 == 0 then Failed(a2)
          else ScanLoop(ws, me, mark, ok, idx[1..], a2)
  }

  /** The scan over `idx` from counter value `active` takes from exactly the
      victim Pick names, and the net effect of its activity marking on the
      counter is +1 on success and 0 on failure. */
  predicate PicksFirstReady(ws: seq<Worker.State>, me: int, mark: bool, ok: int -> bool, idx: seq<int>, active: int)
    requires forall k :: 0 <= k < |idx| ==> 0 <= idx[k] < |ws|
  {
    var c := Candidates(ws, me, idx);
    Picks(ScanLoop(ws, me, mark, ok, idx, active), c, Pick(c, ok, mark && active == 0), mark, active)
  }

  /** Scan outcome `r` took candidate `k` of `c` exactly when `k` is a
      position of `c`, and moved the counter as a counting steal does. */
  predicate Picks(r: Scan, c: seq<int>, k: nat, mark: bool, active: int) {
    && (r.Took? <==> k < |c|)
    && (r.Took? ==> k < |c| && r.victim == c[k] && r.active == active + (if mark then 1 else 0))
    && (r.Failed? ==> r.active == active)
  }

  /** A candidate in front shifts the picked position by one. */
  lemma PicksCons(r: Scan, c: seq<int>, k: nat, x: int, mark: bool, active: int)
    requires Picks(r, c, k, mark, active)
    ensures Picks(r, [x] + c, k + 1, mark, active)
  {
    assert k < |c| ==> ([x] + c)[k + 1] == c[k];
  }

  /** The three equations behind a retried candidate. */
  lemma RetryShift(ws: seq<Worker.State>, me: int, mark: bool, ok: int -> bool, idx: seq<int>, active: int)
    requires forall k :: 0 <= k < |idx| ==> 0 <= idx[k] < |ws|
    requires idx != [] && idx[0] != me && ws[idx[0]].local != []
    requires !ok(idx[0]) && !(mark && active == 0)
    ensures ScanLoop(ws, me, mark, ok, idx, active) == ScanLoop(ws, me, mark, ok, idx[1..], active)
    ensures Candidates(ws, me, idx) == [idx[0]] + Candidates(ws, me, idx[1..])
    ensures Pick(Candidates(ws, me, idx), ok, mark && active == 0) ==
            Pick(Candidates(ws, me, idx[1..]), ok, mark && active == 0) + 1
  {
    FirstOkShift(idx[0], Candidates(ws, me, idx[1..]), ok);
  }

  lemma {:induction false} ScanLoopPicks(ws: seq<Worker.State>, me: int, mark: bool, ok: int -> bool, idx: seq<int>, active: int)
    requires forall k :: 0 <= k < |idx| ==> 0 <= idx[k] < |ws|
    ensures PicksFirstReady(ws, me, mark, ok, idx, active)
    decreases |idx|
  {
    if idx != [] {
      var i := idx[0];
      ScanLoopPicks(ws, me, mark, ok, idx[1..], active);
      if i == me || ws[i].local == [] {
        PicksSkip(ws, me, mark, ok, idx, active);
      } else if ok(i) || (mark && active == 0) {
        PicksStop(ws, me, mark, ok, idx, active);
      } else {
        PicksRetry(ws, me, mark, ok, idx, active);
      }
    }
  }

  /** An index that is the stealer or has an empty local queue is passed over. */
  lemma PicksSkip(ws: seq<Worker.State>, me: int, mark: bool, ok: int -> bool, idx: seq<int>, active: int)
    requires forall k :: 0 <= k < |idx| ==> 0 <= idx[k] < |ws|
    requires idx != [] && (idx[0] == me || ws[idx[0]].local == [])
    requires PicksFirstReady(ws, me, mark, ok, idx[1..], active)
    ensures PicksFirstReady(ws, me, mark, ok, idx, active)
  {
    assert ScanLoop(ws, me, mark, ok, idx, active) == ScanLoop(ws, me, mark, ok, idx[1..], active);
    assert Candidates(ws, me, idx) == Candidates(ws, me, idx[1..]);
  }

  /** The scan stops at a candidate whose dequeue wins, or whose failure
      leaves the counter at zero. */
  lemma PicksStop(ws: seq<Worker.State>, me: int, mark: bool, ok: int -> bool, idx: seq<int>, active: int)
    requires forall k :: 0 <= k < |idx| ==> 0 <= idx[k] < |ws|
    requires idx != [] && idx[0] != me && ws[idx[0]].local != []
    requires ok(idx[0]) || (mark && active == 0)
    ensures PicksFirstReady(ws, me, mark, ok, idx, active)
  {
    var c := Candidates(ws, me, idx);
    assert c == [idx[0]] + Candidates(ws, me, idx[1..]);
    assert c[0] == idx[0];
  }

  /** A failed attempt that leaves the counter non-zero moves on. */
  lemma PicksRetry(ws: seq<Worker.State>, me: int, mark: bool, ok: int -> bool, idx: seq<int>, active: int)
    requires forall k :: 0 <= k < |idx| ==> 0 <= idx[k] < |ws|
    requires idx != [] && idx[0] != me && ws[idx[0]].local != []
    requires !ok(idx[0]) && !(mark && active == 0)
    requires PicksFirstReady(ws, me, mark, ok, idx[1..], active)
    ensures PicksFirstReady(ws, me, mark, ok, idx, active)
  {
    RetryShift(ws, me, mark, ok, idx, active);
    var c' := Candidates(ws, me, idx[1..]);
    PicksCons(ScanLoop(ws, me, mark, ok, idx[1..], active), c', Pick(c', ok, mark && active == 0), idx[0], mark, active);
  }

  /** The system after worker `me` drew a random number. */
  function Drawn(s: System, me: int): (r: System)
    requires Valid(s) && Owns(s, me)
    ensures Valid(r) && |r.workers| == |s.workers| && r.active == s.active
    ensures Held(r.workers) == Held(s.workers)
    ensures forall j :: 0 <= j < |s.workers| ==>
              r.workers[j] == s.workers[j].(seed := r.workers[j].seed)
    ensures r.workers[me].seed == Worker.Rand(s.workers[me]).1.seed
    ensures forall j :: 0 <= j < |s.workers| && j != me ==> r.workers[j].seed == s.workers[j].seed
  {
    var w := Worker.Rand(s.workers[me]).1;
    RandHeld(s.workers, me);
    Put(s, me, w)
  }

  /** Drawing a random number moves no node. */
  lemma RandHeld(ws: seq<Worker.State>, me: int)
    requires 0 <= me < |ws| && Worker.Valid(ws[me])
    ensures Held(ws[me := Worker.Rand(ws[me]).1]) == Held(ws)
  {
    var w := Worker.Rand(ws[me]).1;
    HeldUpdate(ws, me, w);
    CancelShared(Held(ws[me := w]), Held(ws), Worker.Held(w));
  }

  /** Every worker's local queue is as it was. */
  predicate SameLocals(ws: seq<Worker.State>, us: seq<Worker.State>) {
    |us| == |ws| && forall j :: 0 <= j < |ws| ==> us[j].local == ws[j].local
  }

  /** Worker `v`'s local queue lost exactly its head, and no other local
      queue changed. */
  predicate TookHead(ws: seq<Worker.State>, us: seq<Worker.State>, v: int) {
    && |us| == |ws| && 0 <= v < |ws|
    && ws[v].local != [] && us[v].local == ws[v].local[1..]
    && forall j :: 0 <= j < |ws| && j != v ==> us[j].local == ws[j].local
  }

  /** Table `us` differs from `ws` at most in worker `me`'s seed and inbox
      and in the local queues: what a worker searching for work may change. */
  predicate Searched(ws: seq<Worker.State>, us: seq<Worker.State>, me: int) {
    && |us| == |ws|
    && (forall j :: 0 <= j < |ws| ==>
          us[j] == ws[j].(seed := us[j].seed, local := us[j].local, remote := us[j].remote))
    && (forall j :: 0 <= j < |ws| && j != me ==> us[j].seed == ws[j].seed && us[j].remote == ws[j].remote)
  }

  /** `batch` is the head that some worker other than `me` lost from its
      local queue between `ws` and `us`, no other local queue changing. */
  predicate Robbed(ws: seq<Worker.State>, us: seq<Worker.State>, me: int, batch: seq<Node>) {
    exists v :: 0 <= v < |ws| && v != me && TookHead(ws, us, v) && batch == [ws[v].local[0]]
  }

  /** Searching twice is searching. */
  lemma SearchedTwice(ws: seq<Worker.State>, gs: seq<Worker.State>, us: seq<Worker.State>, me: int)
    requires Searched(ws, gs, me) && Searched(gs, us, me)
    ensures Searched(ws, us, me)
  {
    forall j | 0 <= j < |ws|
      ensures us[j] == ws[j].(seed := us[j].seed, local := us[j].local, remote := us[j].remote)
    {
      assert gs[j] == ws[j].(seed := gs[j].seed, local := gs[j].local, remote := gs[j].remote);
    }
  }

  /** A theft from a table with the same local queues as `ws` is a theft
      from `ws`. */
  lemma RobbedKept(ws: seq<Worker.State>, gs: seq<Worker.State>, us: seq<Worker.State>, me: int, batch: seq<Node>)
    requires SameLocals(ws, gs) && Robbed(gs, us, me, batch)
    ensures Robbed(ws, us, me, batch)
  {
    var v :| 0 <= v < |gs| && v != me && TookHead(gs, us, v) && batch == [gs[v].local[0]];
    assert TookHead(ws, us, v);
  }

  /** A steal is a search that leaves the stealer's inbox alone and either
      changes no local queue or takes one other worker's head. */
  lemma StealSearched(s: System, me: int, mark: bool, ok: int -> bool)
    requires Valid(s) && Owns(s, me)
    ensures var g := TrySteal(s, me, mark, ok);
            && Searched(s.workers, g.sys.workers, me)
            && g.sys.workers[me].remote == s.workers[me].remote
            && (g.Missed? ==> SameLocals(s.workers, g.sys.workers))
            && (g.Got? ==> Robbed(s.workers, g.sys.workers, me, g.batch))
  {
  }

  /** `try_steal_work`: draw the next seed, scan the other workers from just
      after the start index, and take the head of the local queue of the
      first victim whose dequeue wins. */
  function TrySteal(s: System, me: int, mark: bool, ok: int -> bool): (r: Grab)
    requires Valid(s) && Owns(s, me)
    ensures Valid(r.sys) && |r.sys.workers| == |s.workers|
    ensures r.Got? ==> r.sys.active == s.active + (if mark then 1 else 0)
    ensures r.Missed? ==> r.sys.active == s.active
    ensures r.Got? ==> |r.batch| == 1
    ensures Held(r.sys.workers) + Taken(r) == Held(s.workers)
    ensures r.sys.workers[me].chain == s.workers[me].chain
    ensures r.sys.workers[me].credit == s.workers[me].credit
    ensures r.sys.workers[me].remote == s.workers[me].remote
    ensures r.sys.workers[me].seed == Worker.Rand(s.workers[me]).1.seed
    ensures forall j :: 0 <= j < |s.workers| && j != me ==> r.sys.workers[j].seed == s.workers[j].seed
    ensures forall j :: 0 <= j < |s.workers| ==>
              r.sys.workers[j] == s.workers[j].(seed := r.sys.workers[j].seed, local := r.sys.workers[j].local)
    ensures r.Missed? ==> SameLocals(s.workers, r.sys.workers)
    ensures r.Got? ==> exists v :: && v != me && TookHead(s.workers, r.sys.workers, v)
                                   && r.batch == [s.workers[v].local[0]]
  {
    var n := |s.workers|;
    var s1 := Drawn(s, me);
    var idx := ScanIndices(StartIndex(s.workers[me].seed, n), n);
    ScanInRange(StartIndex(s.workers[me].seed, n), n);
    var sc := ScanLoop(s1.workers, me, mark, ok, idx, s.active);
    assert sc.active == s.active + (if sc.Took? && mark then 1 else 0) by {
      ScanLoopPicks(s1.workers, me, mark, ok, idx, s.active);
    }
    Settle(s, me, mark, sc)
  }

  /** The end of `try_steal_work` once the scan has run: the victim's head
      as a one-node batch, or nothing. */
  function Settle(s: System, me: int, mark: bool, sc: Scan): (r: Grab)
    requires Valid(s) && Owns(s, me)
    requires sc.Took? ==> 0 <= sc.victim < |s.workers| && sc.victim != me && s.workers[sc.victim].local != []
    requires sc.active == s.active + (if sc.Took? && mark then 1 else 0)
    ensures Valid(r.sys) && |r.sys.workers| == |s.workers|
    ensures r.Got? ==> r.sys.active == s.active + (if mark then 1 else 0)
    ensures r.Missed? ==> r.sys.active == s.active
    ensures r.Got? ==> |r.batch| == 1
    ensures Held(r.sys.workers) + Taken(r) == Held(s.workers)
    ensures r.sys.workers[me].chain == s.workers[me].chain
    ensures r.sys.workers[me].credit == s.workers[me].credit
    ensures r.sys.workers[me].remote == s.workers[me].remote
    ensures r.sys.workers[me].seed == Worker.Rand(s.workers[me]).1.seed
    ensures forall j :: 0 <= j < |s.workers| && j != me ==> r.sys.workers[j].seed == s.workers[j].seed
    ensures forall j :: 0 <= j < |s.workers| ==>
              r.sys.workers[j] == s.workers[j].(seed := r.sys.workers[j].seed, local := r.sys.workers[j].local)
    ensures r.Missed? ==> SameLocals(s.workers, r.sys.workers)
    ensures r.Got? ==> exists v :: && v != me && TookHead(s.workers, r.sys.workers, v)
                                   && r.batch == [s.workers[v].local[0]]
  {
    match sc
    case Took(v, a) => Raid(s, me, v, a)
    case Failed(a) => Miss(s, me, a)
  }

  /** No dequeue won: only the stealer's seed and the counter moved. */
  function Miss(s: System, me: int, a: int): (r: Grab)
    requires Valid(s) && Owns(s, me)
    ensures r.Missed? && r.sys.active == a
    ensures Valid(r.sys) && Held(r.sys.workers) == Held(s.workers)
    ensures r.sys.workers == s.workers[me := Worker.Rand(s.workers[me]).1]
  {
    Missed(Drawn(s, me).(active := a))
  }

  /** A won dequeue from victim `v`: its local head becomes a one-node batch. */
  function Raid(s: System, me: int, v: int, a: int): (r: Grab)
    requires Valid(s) && Owns(s, me)
    requires 0 <= v < |s.workers| && v != me && s.workers[v].local != []
    ensures r.Got? && r.sys.active == a
    ensures Valid(r.sys) && |r.sys.workers| == |s.workers|
    ensures Held(r.sys.workers) + Taken(r) == Held(s.workers)
    ensures r.sys.workers[me] == Worker.Rand(s.workers[me]).1
    ensures forall j :: 0 <= j < |s.workers| && j != me ==> r.sys.workers[j].seed == s.workers[j].seed
    ensures forall j :: 0 <= j < |s.workers| ==>
              r.sys.workers[j] == s.workers[j].(seed := r.sys.workers[j].seed, local := r.sys.workers[j].local)
    ensures TookHead(s.workers, r.sys.workers, v) && r.batch == [s.workers[v].local[0]]
  {
    var s1 := Drawn(s, me);
    var t := TakeLocal(s1, v);
    Got([s1.workers[v].local[0]], t.(active := a))
  }

  /** The outcome of TrySteal is the outcome of its scan over the other
      workers' queues as they were before the call. */
  lemma TryStealScans(s: System, me: int, mark: bool, ok: int -> bool)
    requires Valid(s) && Owns(s, me)
    ensures var n := |s.workers|;
            var idx := ScanIndices(StartIndex(s.workers[me].seed, n), n);
            (forall k :: 0 <= k < |idx| ==> 0 <= idx[k] < n) &&
            var sc := ScanLoop(s.workers, me, mark, ok, idx, s.active);
            var r := TrySteal(s, me, mark, ok);
            && (r.Got? <==> sc.Took?)
            && (r.Got? ==> r.batch == [s.workers[sc.victim].local[0]]
                           && r.sys.workers[sc.victim].local == s.workers[sc.victim].local[1..])
  {
    var n := |s.workers|;
    var s1 := Drawn(s, me);
    var idx := ScanIndices(StartIndex(s.workers[me].seed, n), n);
    ScanInRange(StartIndex(s.workers[me].seed, n), n);
    ScanLoopSameLocals(s.workers, s1.workers, me, mark, ok, idx, s.active);
  }

  /** The scan only looks at local queues. */
  lemma {:induction false} ScanLoopSameLocals(ws: seq<Worker.State>, us: seq<Worker.State>, me: int, mark: bool, ok: int -> bool, idx: seq<int>, active: int)
    requires |ws| == |us|
    requires forall j :: 0 <= j < |ws| ==> ws[j].local == us[j].local
    requires forall k :: 0 <= k < |idx| ==> 0 <= idx[k] < |ws|
    ensures ScanLoop(ws, me, mark, ok, idx, active) == ScanLoop(us, me, mark, ok, idx, active)
    decreases |idx|
  {
    if idx != [] {
      var a := if mark then active + 1 else active;
      var a2 := if mark then a - 1 else a;
      ScanLoopSameLocals(ws, us, me, mark, ok, idx[1..], active);
      ScanLoopSameLocals(ws, us, me, mark, ok, idx[1..], a2);
    }
  }

  /** Whatever a steal takes is the head of the local queue of a worker
      other than the stealer and other than the start index, and that
      victim's queue loses exactly its head. */
  lemma StealTakesVictimHead(s: System, me: int, mark: bool, ok: int -> bool)
    requires Valid(s) && Owns(s, me)
    ensures var start := StartIndex(s.workers[me].seed, |s.workers|);
            var r := TrySteal(s, me, mark, ok);
            r.Got? ==> exists v :: && 0 <= v < |s.workers| && v != me && v != start
                                   && s.workers[v].local != [] && ok(v)
                                   && r.batch == [s.workers[v].local[0]]
                                   && r.sys.workers[v].local == s.workers[v].local[1..]
  {
    var n := |s.workers|;
    var start := StartIndex(s.workers[me].seed, n);
    ScanCovers(start, n);
    TryStealScans(s, me, mark, ok);
  }

  /** Unless the scan marks activity while the counter reads zero, a steal
      succeeds exactly when some worker other than the stealer and other than
      the start index has a non-empty local queue whose dequeue wins. */
  lemma StealSucceedsIff(s: System, me: int, mark: bool, ok: int -> bool)
    requires Valid(s) && Owns(s, me)
    requires !(mark && s.active == 0)
    ensures var start := StartIndex(s.workers[me].seed, |s.workers|);
            TrySteal(s, me, mark, ok).Got? <==>
              exists v :: 0 <= v < |s.workers| && v != me && v != start
                          && s.workers[v].local != [] && ok(v)
  {
    StealTakesVictimHead(s, me, mark, ok);
    var n := |s.workers|;
    var start := StartIndex(s.workers[me].seed, n);
    if v :| 0 <= v < n && v != me && v != start && s.workers[v].local != [] && ok(v) {
      StealFindsReady(s, me, mark, ok, v);
    }
  }

  /** A ready victim anywhere in the scan is found. */
  lemma StealFindsReady(s: System, me: int, mark: bool, ok: int -> bool, v: int)
    requires Valid(s) && Owns(s, me)
    requires !(mark && s.active == 0)
    requires 0 <= v < |s.workers| && v != me && v != StartIndex(s.workers[me].seed, |s.workers|)
    requires s.workers[v].local != [] && ok(v)
    ensures TrySteal(s, me, mark, ok).Got?
  {
    var n := |s.workers|;
    var start := StartIndex(s.workers[me].seed, n);
    var idx := ScanIndices(start, n);
    ScanCovers(start, n);
    TryStealScans(s, me, mark, ok);
    ScanLoopPicks(s.workers, me, mark, ok, idx, s.active);
    var c := Candidates(s.workers, me, idx);
    assert v in idx;
    var i :| 0 <= i < |idx| && idx[i] == v;
    assert v in c;
    var j :| 0 <= j < |c| && c[j] == v;
    assert FirstOk(c, ok) <= j;
  }

  /** When the scan marks activity and the counter reads zero, only the first
      non-empty victim in scan order is tried: one failed dequeue ends the
      steal. */
  lemma StealGivesUpAtZero(s: System, me: int, ok: int -> bool)
    requires Valid(s) && Owns(s, me)
    requires s.active == 0
    ensures var n := |s.workers|;
            var idx := ScanIndices(StartIndex(s.workers[me].seed, n), n);
            (forall k :: 0 <= k < |idx| ==> 0 <= idx[k] < n) &&
            var c := Candidates(s.workers, me, idx);
            (TrySteal(s, me, true, ok).Got? <==> c != [] && ok(c[0]))
  {
    var n := |s.workers|;
    var idx := ScanIndices(StartIndex(s.workers[me].seed, n), n);
    TryStealScans(s, me, true, ok);
    ScanLoopPicks(s.workers, me, true, ok, idx, s.active);
  }

  /** With a single worker there is nobody to steal from. */
  lemma LoneWorkerNeverSteals(s: System, mark: bool, ok: int -> bool)
    requires Valid(s) && |s.workers| == 1
    ensures TrySteal(s, 0, mark, ok).Missed?
  {
    TryStealScans(s, 0, mark, ok);
  }

  /** The start index as the source computes it, `rand() % nworkers` with C's
      `%` on the signed seed: negative whenever the seed is negative and not
      a multiple of n. */
  function AsWrittenStart(seed: int, n: int): (start: int)
    requires n > 0
    ensures -n < start < n
    ensures seed >= 0 ==> start == StartIndex(seed, n)
    ensures seed < 0 ==> (start == StartIndex(seed, n) <==> start == 0)
  {
    ZeroRemAgrees(seed, n);
    CRem(seed, n)
  }

  /** A seed whose C remainder is zero is a multiple of n, so its
      non-negative remainder is zero too. */
  lemma ZeroRemAgrees(seed: int, n: int)
    requires n > 0
    ensures CRem(seed, n) == 0 ==> StartIndex(seed, n) == 0
  {
    if CRem(seed, n) == 0 {
      MultipleInRange(CQuot(seed, n) - seed / n, n, StartIndex(seed, n));
    }
  }

  /** The only multiple of n in [0, n) is zero. */
  lemma MultipleInRange(k: int, n: int, x: int)
    requires n > 0 && x == n * k && 0 <= x < n
    ensures x == 0
  {
  }

  /** The k-th index the source's loop computes from `start`: first
      `(start+1) % n`, then `(i+1) % n` each turn, with C's `%`. */
  function AsWrittenProbe(start: int, n: int, k: nat): int
    requires n > 0
  {
    if k == 0 then CRem(start + 1, n) else CRem(AsWrittenProbe(start, n, k - 1) + 1, n)
  }

  /** From a negative start the loop counts up through negative indices,
      none of which names a worker, and then cycles through [0, n): it never
      comes back to `start`, so the exit test `i != start` never fails. */
  lemma {:induction false} NegativeStartNeverMet(start: int, n: int, k: nat)
    requires n > 0 && -n < start < 0
    ensures start < AsWrittenProbe(start, n, k) < n
    ensures k == 0 ==> AsWrittenProbe(start, n, k) == start + 1
  {
    if k == 0 {
      CRemSmall(start + 1, n);
    } else {
      NegativeStartNeverMet(start, n, k - 1);
      var p := AsWrittenProbe(start, n, k - 1) + 1;
      if p < n {
        CRemSmall(p, n);
      }
    }
  }

  /** A worker whose seed has reached INT_MAX: `rand()` hands out INT_MAX
      and wraps the seed to INT_MIN.  On the next steal among three workers
      the source's start index is -2, the first index it probes is -1
      (outside the worker table), and its loop never reaches the exit test's
      value again.  The non-negative remainder gives index 1 instead, from
      which the scan probes 2 and 0 and stops. */
  lemma WrappedSeedBreaksScan(w: Worker.State)
    requires Worker.Valid(w) && w.seed == IntMax
    ensures var seed := Worker.Rand(Worker.Rand(w).1).0;
            var start := AsWrittenStart(seed, 3);
            && seed == IntMin
            && start == -2
            && AsWrittenProbe(start, 3, 0) == -1
            && (forall k: nat :: AsWrittenProbe(start, 3, k) != start)
            && StartIndex(seed, 3) == 1
            && ScanIndices(StartIndex(seed, 3), 3) == [2, 0]
  {
    forall k: nat
      ensures AsWrittenProbe(-2, 3, k) != -2
    {
      NegativeStartNeverMet(-2, 3, k);
    }
    assert ScanIndices(1, 3)[0] == 2 && ScanIndices(1, 3)[1] == 0;
  }
}

=== FILE: worker.dfy ===
/** One worker's private scheduling state and the operations a running fiber
    performs on it: taking the next in-hand continuation, pushing a
    continuation with the LIFO/FIFO hybrid policy, and yielding. */
module Worker {
  import opened Nodes
  import opened CInt

  /** Constants of the seed formula in the worker constructor. */
  const SeedBase: int := 35442352
  const SeedStride: int := 23243

  /** LIFO-push credit granted at every batch replenishment. */
  const LifoCredit: int := 2

  /** A worker.  `chain` is the in-hand batch reached from the cursor
      (`local_reserved`), listed in resume order and implicitly terminated by
      the sentinel; `local` and `remote` are the two run-queues seen as FIFO
      sequences, head first; `credit` is the LIFO-push credit; `seed` is the
      PRNG state used to choose steal victims. */
  datatype State = State(
    id: int,
    seed: int,
    chain: seq<Node>,
    credit: int,
    local: seq<Node>,
    remote: seq<Node>)

  /** The node the cursor points at: the head of the chain, or the sentinel
      once the in-hand batch is used up. */
  function Cursor(w: State): Node {
    if w.chain == [] then Sentinel else w.chain[0]
  }

  /** The representation invariant: no queue or chain holds the sentinel as
      payload, and the seed is a 32-bit value. */
  predicate Valid(w: State) {
    && Payload(w.chain)
    && Payload(w.local)
    && Payload(w.remote)
    && IsInt32(w.seed)
  }

  /** Every node the worker holds, wherever it is queued. */
  function Held(w: State): multiset<Node> {
    multiset(w.chain) + multiset(w.local) + multiset(w.remote)
  }

  /** The worker constructor.  It does not set `id` (the field is assigned by
      whoever creates the worker) yet reads it for the seed, and it leaves the
      LIFO credit unset: `idField` and `credit` are whatever those fields hold
      when the constructor body runs. */
  function New(idField: int, credit: int): (w: State)
    ensures Valid(w)
    ensures Cursor(w) == Sentinel
    ensures w.local == [] && w.remote == []
    ensures Held(w) == multiset{}
    ensures w.id == idField && w.credit == credit
    ensures w.seed == Wrap32(SeedBase + idField * SeedStride)
  {
    State(idField, Wrap32(SeedBase + idField * SeedStride), [], credit, [], [])
  }

  /** `pop_runqueue`: resume the continuation under the cursor and advance the
      cursor to its successor.  Calling it on the sentinel is a fatal
      assertion in the source, hence the precondition. */
  function Pop(w: State): (r: (Node, State))
    requires Valid(w)
    requires Cursor(w) != Sentinel
    ensures r.0 == Cursor(w) && r.0 != Sentinel
    ensures Valid(r.1)
    ensures w.chain == [r.0] + r.1.chain
    ensures r.1 == w.(chain := r.1.chain)
    ensures Cursor(r.1) == Sentinel <==> |w.chain| == 1
    ensures |w.chain| > 1 ==> Last(r.1.chain) == Last(w.chain)
    ensures Held(r.1) + multiset{r.0} == Held(w)
  {
    (w.chain[0], w.(chain := w.chain[1..]))
  }

  /** Popping `k` times in a row: the continuations resumed, in order, and
      the state left behind. */
  function PopN(w: State, k: nat): (r: (seq<Node>, State))
    requires Valid(w) && k <= |w.chain|
    decreases k
  {
    if k == 0 then ([], w)
    else
      var p := Pop(w);
      var q := PopN(p.1, k - 1);
      ([p.0] + q.0, q.1)
  }

  /** Successive pops hand out the chain in order, and nothing else moves. */
  lemma {:induction false} PopsFollowChain(w: State, k: nat)
    requires Valid(w) && k <= |w.chain|
    ensures PopN(w, k).0 == w.chain[..k]
    ensures PopN(w, k).1 == w.(chain := w.chain[k..])
    decreases k
  {
    if k > 0 {
      PopsFollowChain(w.(chain := w.chain[1..]), k - 1);
      PopsStep(w, k);
    }
  }

  /** One more pop in front of `k - 1` pops from the rest of the chain. */
  lemma PopsStep(w: State, k: nat)
    requires Valid(w) && 0 < k <= |w.chain|
    requires PopN(w.(chain := w.chain[1..]), k - 1).0 == w.chain[1..][..k - 1]
    requires PopN(w.(chain := w.chain[1..]), k - 1).1 == w.(chain := w.chain[1..][k - 1..])
    ensures PopN(w, k).0 == w.chain[..k]
    ensures PopN(w, k).1 == w.(chain := w.chain[k..])
  {
    assert w.chain[1..][k - 1..] == w.chain[k..];
    assert [w.chain[0]] + w.chain[1..][..k - 1] == w.chain[..k];
  }

  /** The tail of `scheduler_loop`: a fresh batch becomes the in-hand chain,
      with the scheduler's own continuation `sched` linked after the batch's
      last node and the sentinel after that; the LIFO credit is reset and the
      batch's first node is resumed. */
  function Reserve(w: State, batch: seq<Node>, sched: Node): (r: (Node, State))
    requires Valid(w) && Cursor(w) == Sentinel
    requires batch != [] && Payload(batch) && sched != Sentinel
    ensures r.0 == batch[0] && r.0 != Sentinel
    ensures Valid(r.1) && Cursor(r.1) != Sentinel
    ensures [r.0] + r.1.chain == batch + [sched]
    ensures r.1.credit == LifoCredit
    ensures r.1 == w.(chain := r.1.chain, credit := r.1.credit)
    ensures Held(r.1) + multiset{r.0} == Held(w) + multiset(batch) + multiset{sched}
  {
    assert batch == [batch[0]] + batch[1..];
    (batch[0], w.(chain := batch[1..] + [sched], credit := LifoCredit))
  }

  /** Once a batch is installed, the next `|batch|` pops resume the rest of
      the batch and then the scheduler, after which the cursor is back on the
      sentinel and nothing else about the worker has moved. */
  lemma SchedulerRunsLast(w: State, batch: seq<Node>, sched: Node)
    requires Valid(w) && Cursor(w) == Sentinel
    requires batch != [] && Payload(batch) && sched != Sentinel
    ensures var p := PopN(Reserve(w, batch, sched).1, |batch|);
      && p == (batch[1..] + [sched], w.(credit := LifoCredit))
      && Last(p.0) == sched
      && Cursor(p.1) == Sentinel
  {
    InstalledRunsOut(w, Reserve(w, batch, sched).1, batch, sched);
  }

  /** The pops after an install run through the batch's tail and `sched`. */
  lemma InstalledRunsOut(w: State, w1: State, batch: seq<Node>, sched: Node)
    requires Valid(w1) && w.chain == [] && batch != []
    requires w1 == w.(chain := batch[1..] + [sched], credit := LifoCredit)
    ensures var p := PopN(w1, |batch|);
      && p == (batch[1..] + [sched], w.(credit := LifoCredit))
      && Last(p.0) == sched
      && Cursor(p.1) == Sentinel
  {
    PopsAll(w1);
  }

  /** Popping the whole chain resumes it in order and leaves the cursor on
      the sentinel. */
  lemma PopsAll(w: State)
    requires Valid(w)
    ensures PopN(w, |w.chain|) == (w.chain, w.(chain := []))
  {
    PopsFollowChain(w, |w.chain|);
    assert w.chain[..|w.chain|] == w.chain;
    assert w.chain[|w.chain|..] == [];
  }

  /** Another worker appends `x` to this worker's remote queue. */
  function Receive(w: State, x: Node): (r: State)
    ensures r == w.(remote := r.remote) && r.remote == w.remote + [x]
    ensures Valid(w) && x != Sentinel ==> Valid(r)
    ensures Held(r) == Held(w) + multiset{x}
  {
    w.(remote := w.remote + [x])
  }

  /** `push_runqueue_lifo`: splice `x` in at the cursor. */
  function PushLifo(w: State, x: Node): (r: State)
    requires x != Sentinel
    ensures Cursor(r) == x
    ensures Valid(w) ==> Valid(r) && Pop(r) == (x, w)
    ensures Held(r) == Held(w) + multiset{x}
  {
    w.(chain := [x] + w.chain)
  }

  /** `push_runqueue_fifo`: enqueue `x` at the tail of the local queue, where
      stealers can see it. */
  function PushFifo(w: State, x: Node): (r: State)
    requires x != Sentinel
    ensures |r.local| == |w.local| + 1
    ensures r.local[..|w.local|] == w.local && Last(r.local) == x
    ensures r == w.(local := r.local)
    ensures Valid(w) ==> Valid(r)
    ensures Held(r) == Held(w) + multiset{x}
  {
    w.(local := w.local + [x])
  }

  /** `push_runqueue`: LIFO while credit remains, consuming one unit of it;
      FIFO otherwise. */
  function Push(w: State, x: Node): (r: State)
    requires x != Sentinel
    ensures w.credit > 0 ==>
      && Cursor(r) == x
      && r.chain[1..] == w.chain
      && r.credit == w.credit - 1
      && r.local == w.local
    ensures w.credit <= 0 ==>
      && r.chain == w.chain
      && r.credit == w.credit
      && r.local == w.local + [x]
    ensures r.remote == w.remote && r.seed == w.seed && r.id == w.id
    ensures Valid(w) ==> Valid(r)
    ensures w.chain != [] ==> r.chain != [] && Last(r.chain) == Last(w.chain)
    ensures 0 <= w.credit <= LifoCredit ==> 0 <= r.credit <= LifoCredit
    ensures Held(r) == Held(w) + multiset{x}
  {
    if w.credit > 0 then
      PushLifo(w.(credit := w.credit - 1), x)
    else
      PushFifo(w, x)
  }

  /** What the next pop sees after a push: the pushed node while credit
      remains, and otherwise the node that was already under the cursor. */
  lemma PushThenPop(w: State, x: Node)
    requires Valid(w) && x != Sentinel
    ensures w.credit > 0 ==> Pop(Push(w, x)) == (x, w.(credit := w.credit - 1))
    ensures w.credit <= 0 && Cursor(w) != Sentinel ==>
      Pop(Push(w, x)) == (Cursor(w), w.(chain := w.chain[1..], local := w.local + [x]))
  {
  }

  /** Pushing `ps` one after another, in order. */
  function PushAll(w: State, ps: seq<Node>): State
    requires Payload(ps)
    decreases |ps|
  {
    if ps == [] then w else Push(PushAll(w, ps[..|ps| - 1]), Last(ps))
  }

  /** How many of `n` consecutive pushes go LIFO when the credit is `credit`. */
  function LifoCount(credit: int, n: nat): (m: nat)
    ensures m <= n
  {
    if credit <= 0 then 0 else if credit < n then credit else n
  }

  /** The shape a burst of pushes `ps` leaves behind, starting from `w`: the
      first m of them (m = the available credit, at most |ps|) spliced at the
      cursor most recent first, the credit down by m, the rest appended to the
      local queue in their own order. */
  predicate BurstShape(w: State, ps: seq<Node>, r: State) {
    var m := LifoCount(w.credit, |ps|);
    && r.chain == Reverse(ps[..m]) + w.chain
    && r.credit == w.credit - m
    && r.local == w.local + ps[m..]
    && r.remote == w.remote
    && r.seed == w.seed
  }

  /** A burst of pushes p1..pk: the next m pops return pm .. p1 (most recent
      first) ahead of the rest of the in-hand batch, where m is the credit
      available (at most k); the remaining pushes join the local queue in
      their own order. */
  lemma {:induction false} PushBurst(w: State, ps: seq<Node>)
    requires Payload(ps)
    ensures BurstShape(w, ps, PushAll(w, ps))
    decreases |ps|
  {
    if ps != [] {
      var n := |ps| - 1;
      PushBurst(w, ps[..n]);
      BurstStep(w, ps, PushAll(w, ps[..n]));
    }
  }

  /** One more push extends the shape of a burst. */
  lemma BurstStep(w: State, ps: seq<Node>, v: State)
    requires Payload(ps) && ps != []
    requires BurstShape(w, ps[..|ps| - 1], v)
    ensures BurstShape(w, ps, Push(v, Last(ps)))
  {
    if v.credit > 0 {
      BurstStepLifo(w, ps, v);
    } else {
      BurstStepFifo(w, ps, v);
    }
  }

  lemma BurstStepLifo(w: State, ps: seq<Node>, v: State)
    requires Payload(ps) && ps != []
    requires BurstShape(w, ps[..|ps| - 1], v)
    requires v.credit > 0
    ensures BurstShape(w, ps, Push(v, Last(ps)))
  {
    var n := |ps| - 1;
    var m0 := LifoCount(w.credit, n);
    assert m0 == n && LifoCount(w.credit, |ps|) == n + 1;
    assert ps[..n][..m0] == ps[..n];
    ReverseSnoc(ps[..n], ps[n]);
    assert ps[..n] + [ps[n]] == ps;
    assert ps[..n][m0..] == [] && ps[n + 1..] == [];
    assert ps[..n + 1] == ps;
  }

  lemma BurstStepFifo(w: State, ps: seq<Node>, v: State)
    requires Payload(ps) && ps != []
    requires BurstShape(w, ps[..|ps| - 1], v)
    requires v.credit <= 0
    ensures BurstShape(w, ps, Push(v, Last(ps)))
  {
    var n := |ps| - 1;
    var m := LifoCount(w.credit, n);
    assert LifoCount(w.credit, |ps|) == m;
    assert ps[..n][..m] == ps[..m];
    assert ps[..n][m..] + [ps[n]] == ps[m..];
  }

  lemma ReverseSnoc(q: seq<Node>, x: Node)
    ensures Reverse(q + [x]) == [x] + Reverse(q)
  {
    var l := Reverse(q + [x]);
    var r := [x] + Reverse(q);
    assert forall i :: 0 <= i < |l| ==> l[i] == r[i];
  }

  /** `yield`: the running fiber parks its placeholder `self` at the tail of
      the local queue and resumes the next in-hand continuation.  `self` is a
      fresh stack object, so it is not in the chain; the source asserts that
      the continuation resumed is not `self`. */
  function Yield(w: State, self: Node): (r: (Node, State))
    requires Valid(w)
    requires Cursor(w) != Sentinel
    requires self != Sentinel && self !in w.chain
    ensures r.0 == Cursor(w) && r.0 != Sentinel && r.0 != self
    ensures Valid(r.1)
    ensures r.1.chain == w.chain[1..]
    ensures r.1.local == w.local + [self]
    ensures r.1.credit == w.credit && r.1.remote == w.remote && r.1.seed == w.seed
    ensures r.1 == w.(chain := w.chain[1..], local := w.local + [self])
    ensures Held(r.1) + multiset{r.0} == Held(w) + multiset{self}
  {
    Pop(PushFifo(w, self))
  }

  /** `rand`: the current seed, post-incremented.  The seed is a plain
      `int`; incrementing the largest value is undefined in C++, and the
      model takes the two's-complement wrap to the smallest. */
  function Rand(w: State): (r: (int, State))
    requires Valid(w)
    ensures r.0 == w.seed
    ensures Valid(r.1) && r.1 == w.(seed := r.1.seed)
    ensures w.seed < IntMax ==> r.1.seed == w.seed + 1
    ensures w.seed == IntMax ==> r.1.seed == IntMin
  {
    (w.seed, w.(seed := if w.seed == IntMax then IntMin else w.seed + 1))
  }

  /** The post-increment in `rand` is 32-bit two's-complement addition. */
  lemma RandWraps(w: State)
    requires Valid(w)
    ensures Rand(w).1.seed == Wrap32(w.seed + 1)
  {
    if w.seed == IntMax {
      assert Wrap32(w.seed + 1) == IntMin by {
        assert (w.seed + 1 - IntMin) % Modulus == 0;
      }
    }
  }
}
